=== FILE: README.md ===
# es-view in Dafny

A model of the view layer of the Easy System framework (easy-system/es-view).
The layer has these parts:

- **`Resolver`** maps template names to template files. A name is either
  short (`index`) or module-qualified (`Foo::index`).
  - Module names are normalised, so `FooBar\Baz` becomes `foo-bar/baz`.
  - There are two registration tables: module key → templates directory, and
    template name → file.
  - Discovery goes through `glob` under a module's directory, and what it
    finds is cached.
  - The module of the last successful module lookup is remembered. It is the
    fallback for short names that have no table entry.
- **`ViewModel`** is a variable bag, four string properties (template,
  module, content type, group id) and an ordered list of child models.
- **`View`** creates the layout model lazily. Its `render` renders a model's
  children depth-first, appends each child's output to the parent's variable
  named by the child's group id (its "slot"), and then hands the parent to
  the rendering strategy.
- **The listeners**:
  - `ConfigureResolverListener` loads module directories and the
    `view.resolver` configuration into the resolver.
  - `CreateModelListener` turns a plain dispatch result into a view model.
  - `InjectModuleListener` gives the layout and the dispatched model the
    controller's module.
  - `InjectTemplateListener` derives a template from the controller class and
    the action.
  - `InjectModelListener` appends the dispatched model to the layout.
  - `StrategyListener` resolves the template file and picks the template
    engine by file extension.
  - `ClearOutputListener` removes blank lines from HTML responses.

PHP objects are modelled as immutable values. An operation that mutates an
object returns the updated value.

Failures are modelled in two shapes:

- An operation that throws before changing anything returns `Result`.
- An operation that may throw after it has already changed state returns a
  `Step`, which carries that state. Examples are the resolver's cache, a
  variable bag that was emptied first, and configuration registered without
  rollback.

Exceptions are named by class: `TemplateNotFound`, `Runtime`,
`UnexpectedValue`, `InvalidArgument`.

PHP built-ins are modelled in `php.dfy` and `clear_output_listener.dfy`:

- truthiness, where `''` and `'0'` are falsy;
- `str_replace`, `trim` and its variants, `strpos`/`strrpos`, `strtolower`;
- the dash-before-capitals regular expression;
- `pathinfo`;
- the blank-line regular expression `#(\s)*(\n)+(\r)*#`.

The blank-line expression is modelled twice:

- as the regular-expression engine runs it: leftmost match, and greedy
  quantifiers that give characters back one at a time;
- as a rule about maximal whitespace runs.

`PregReplaceIsClean` proves the two equal.

Two details of the code the model keeps:

- **The fallback to the last module goes through `resolveModule`.** It
  therefore consults the table entry `lastModule::name`, and its glob hits
  are cached (src/Resolver.php:202-207).
- **A child is skipped when `empty()` holds of its group id.** This means
  `''` and also `'0'` (src/View.php:101).

## Model

| member | source | states |
|---|---|---|
| `TemplateResolver.NormalizeModule` | src/Resolver.php:276-291 | A normalised module key has no capital letter, no backslash, and no leading or trailing `/`. |
| `TemplateResolver.NormalizeIdempotent` | src/Resolver.php:283-287 | Normalising a normalised key returns it unchanged, so a module key may be passed wherever a module name is expected. |
| `TemplateResolver.NormalizeIntroducesNothing` | src/Resolver.php:283-287 | Normalisation introduces no character except letters, `/` and `-`. In particular it adds no `:`, so a full name can be split back. |
| `TemplateResolver.NormalizeModuleMemo` | src/Resolver.php:278-290 | The static memo table never changes an answer. Hit or miss, the result is the normalisation of the argument, the table stays correct, existing entries are kept, and a hit leaves the table as it was. |
| `TemplateResolver.NormalizePath` | src/Resolver.php:300-305 | A normalised path is a prefix of the original with every `\` turned into `/`, and no other character changed. What is cut off is only the trailing run of separators of either kind, so the result has no trailing separator. |
| `TemplateResolver.GetFullTemplateName` | src/Resolver.php:65-68 | A full name is the module's normalised key (no capitals, no `\`), then `::`, then a suffix of the short name that does not start with `/`. |
| `TemplateResolver.FullTemplateNameSplits` | src/Resolver.php:65-68 | A full template name splits at its first `::` back into the normalised module key and the short name without leading `/`. |
| `TemplateResolver.SplitAtSeparator` | src/Resolver.php:169-175 | For `key::rest` with no `:` in `key`, `strpos(…, '::')` is the length of `key`, and the two `substr` calls give back `key` and `rest`. |
| `TemplateResolver.RegisterModulePath` | src/Resolver.php:80-89 | The directory is stored under the normalised module key. Every other key keeps its directory, the key set grows by that one key only, and the template table and last module are untouched. |
| `TemplateResolver.ModuleDirShape` | src/Resolver.php:80-89 | A stored directory is the normalised path followed by exactly one `/`, or by `/view/` with the prefix. So it has no backslash and no doubled final separator. |
| `TemplateResolver.RegisterTemplatesMap` | src/Resolver.php:108-113 | A merge: the keys are the union, new entries win, old entries not overridden are kept, and the module table is untouched. |
| `TemplateResolver.RegisterTemplatePath` | src/Resolver.php:123-128 | After registration `hasTemplate` holds of the name with that path. For every other name it answers as before, and that name keeps its path. |
| `TemplateResolver.TemplatesMapRoundTrip` | src/Resolver.php:135-150 | `getTemplatesMap` returns exactly what was registered on a fresh resolver, and `hasTemplate` is membership in it. |
| `TemplateResolver.CheckRegistered` | src/Resolver.php:190-200 | A registered path succeeds exactly when its normalised file exists, and then returns that file. Otherwise it is a RuntimeException, not "not found". |
| `TemplateResolver.FindFile` | src/Resolver.php:252-267 | An unregistered module or an empty glob gives `false` with nothing changed. A hit is a glob match under the module's directory, cached under `module::name` and nowhere else. |
| `TemplateResolver.ResolveModule` | src/Resolver.php:225-242 | A `module::name` table entry wins over discovery, leaves the resolver unchanged, and is checked on disk. Without an entry the result is that of `findFile`. |
| `TemplateResolver.Target` | src/Resolver.php:166-176 | A module argument whose normalised key is truthy wins over an embedded `x::` prefix. Otherwise the prefix is taken verbatim, including after a truthy argument such as `/` that normalises to `''`. With no prefix either, the module stays falsy. The prefix is cut from the name in every case, and leading `/` are dropped. |
| `TemplateResolver.Resolve` | src/Resolver.php:164-213 | `resolve` never touches the module table and never changes or drops a template entry. It adds at most `module::name` or `last::name`. The last module moves only on a success of the module branch, and only to that module. Failures are "not found" or RuntimeException. |
| `TemplateResolver.ResolveIn` | src/Resolver.php:177-212 | The same frame conditions for the three branches once the module and the short name are settled. |
| `ResolverProperties.ShortNameHit` | src/Resolver.php:190-201 | A short-name table entry returns the normalised file if it exists and is a RuntimeException if not. The resolver, including its last module, is unchanged. |
| `ResolverProperties.ModuleTableHit` | src/Resolver.php:177-189 | A `module::name` entry: success records the module, a missing file is a RuntimeException, and a falsy file name is "not found". Only success changes the last module. |
| `ResolverProperties.ModuleBranchNoFallback` | src/Resolver.php:177-189 | A module lookup that finds nothing is "not found". It never falls back to the short table or the last module, and it does not move the last module. |
| `ResolverProperties.UnregisteredModuleNotFound` | src/Resolver.php:252-256 | A module with neither a table entry nor a registered directory is "not found", with no state change. |
| `ResolverProperties.NothingToSearch` | src/Resolver.php:202-212 | With no module, no short entry and no truthy last module, the result is "not found" with nothing changed. |
| `ResolverProperties.QualifiedTarget` | src/Resolver.php:169-176 | Without a module argument, `prefix::name` means module `prefix` and short name `name`. |
| `ResolverProperties.ShortNameTrimmed` | src/Resolver.php:176 | The short name `resolve` works with never starts with `/`. |
| `ResolverProperties.FallbackIn` | src/Resolver.php:202-207 | With no module and no short entry, the lookup is the one for the last module. |
| `ResolverProperties.FallbackIsLastModuleLookup` | src/Resolver.php:202-207 | The fallback gives the same outcome and resolver state as an explicit `last::name` request, and it leaves the last module where it was. |
| `ResolverProperties.ModuleArgumentIsFullName` | src/Resolver.php:166-176 | Resolving `t` in module `M` agrees, in outcome and state, with resolving `getFullTemplateName(M, t)`. |
| `ResolverProperties.NormalizeFalsy` | src/Resolver.php:166-168 | The falsy module names `''` and `'0'` normalise to themselves, so skipping normalisation for them changes nothing. |
| `ResolverProperties.TruthyBeforeNormalizing` | src/Resolver.php:166-171 | A module argument whose normalisation is truthy was truthy itself. |
| `ResolverProperties.ModuleOverridesPrefix` | src/Resolver.php:169-175 | With a module argument whose normalised key is truthy, an embedded `x::` prefix has no influence on the outcome. |
| `ResolverProperties.GlobHitCached` | src/Resolver.php:258-264 | A glob hit is returned, recorded as the last module and cached under `module::name`. Asking again takes the table path and returns the normalised file, whatever glob would now say. |
| `ResolverExamples.FullTemplateNameExample1` | test/ResolverTest.php:51 | `FooBarBaz\BatBan` with `/foo/index` gives `foo-bar-baz/bat-ban::foo/index`. |
| `ResolverExamples.FullTemplateNameExample2` | test/ResolverTest.php:52 | `ComCCCorCot` with `/com/index` gives `com-c-c-cor-cot::com/index`. |
| `ResolverExamples.FullTemplateNameExample4` | test/ResolverTest.php:53 | `Foo\Bar\Baz` with `/baz/index` gives `foo/bar/baz::baz/index`. |
| `ResolverExamples.FullTemplateNameExample3` | test/ResolverTest.php:54 | `EsUser` with `/foo/index` gives `es-user::foo/index`. |
| `ResolverExamples.SlashModuleTakesPrefix` | src/Resolver.php:166-172 | The module argument `/` is truthy but normalises to `''`, so `x::t` resolves in module `x` with name `t`. |
| `ResolverExamples.RegisterModulePathExamples` | test/ResolverTest.php:66-94 | `Foo` at `/foo` is registered as `foo` → `/foo/view/` with the prefix and as `/foo/` without it. |
| `Php.KebabAppend` | src/Resolver.php:285-287 | The dash-before-capitals replacement works on each side of a concatenation independently, plus at most one dash at the seam. |
| `Php.KebabSplit` | src/Listener/InjectTemplateListener.php:112-115 | A non-letter such as `/` stops the replacement: each side is rewritten on its own. |
| `ViewModels.AddVariables` | src/ViewModel.php:134-150 | Arrays, objects and traversables are merged with new entries winning and the other keys kept. Anything else is an InvalidArgumentException. Nothing but the variables changes. |
| `ViewModels.SetVariables` | src/ViewModel.php:117-123 | The bag becomes exactly the new entries. An invalid argument is refused and leaves the bag emptied. |
| `ViewModels.SetVariable` | src/ViewModel.php:160-165 | One entry is stored as given, `null` included. Every other entry is unchanged. |
| `ViewModels.GetVariable` | src/ViewModel.php:185-192 | The stored value is returned if it is set and not `null`, the default otherwise. |
| `ViewModels.New` | src/ViewModel.php:73-84 | The constructor applies each non-null argument. Invalid variables are refused. Otherwise the defaults are `text/html` and group `content`, with no children. |
| `ViewModels.AddChild` | src/ViewModel.php:274-282 | The child goes last and the earlier children are kept in order. A non-null group id is stamped on the child as a string; a null one leaves the child's own group id. |
| `ViewModels.VariableRoundTrip` | src/ViewModel.php:160-192 | `getVariable` returns what `setVariable` stored (the default for `null`). Other names read as before. |
| `ViewModels.SetContentType` | src/ViewModel.php:93-98 | The content-type getter reads back the string cast of the argument. No other property changes. |
| `ViewModels.SetModule` | src/ViewModel.php:201-206 | The module getter reads back the string cast of the argument. No other property changes. |
| `ViewModels.SetTemplate` | src/ViewModel.php:225-230 | The template getter reads back the string cast of the argument. No other property changes. |
| `ViewModels.SetGroupId` | src/ViewModel.php:249-254 | The group-id getter reads back the string cast of the argument. No other property changes. |
| `ViewModels.PropertyRoundTrip` | src/ViewModel.php:201-264 | Each property getter returns the string cast of what its setter was given. A group id set to `null` reads back as `''`, which is empty. |
| `ViewModels.FreshDefaults` | src/ViewModel.php:33-84 | A new model has content type `text/html`, group `content`, no template, no module, no variables and no children. |
| `ViewModels.SetIsClearThenAdd` | src/ViewModel.php:117-123 | `setVariables` is `addVariables` on an emptied bag. |
| `ViewModels.ShapesAgree` | src/ViewModel.php:134-147 | An array, an object and a traversable with the same entries are interchangeable. |
| `ViewModels.ChildrenInOrder` | src/ViewModel.php:274-292 | Whatever children a model already has, the iterator yields them followed by the added children, in the order they were added and with any group id stamped. |
| `Views.GetLayout` | src/View.php:53-62 | An existing layout is returned as it is. Otherwise a fresh model with template `layout/layout` is created and kept. |
| `Views.SetLayout` | src/View.php:43-46 | After `setLayout`, `getLayout` returns exactly the model that was set and creates nothing. |
| `Views.LayoutStable` | src/View.php:43-62 | The layout is created once: asking again returns the same model, and `setLayout` replaces it. |
| `Views.Render` | src/View.php:97-114 | Rendering changes only the variables and the children of the model, keeps the number of children, and never changes a child's group id. |
| `Views.RenderChildren` | src/View.php:99-107 | From any point of the loop on, the model keeps its properties and its number of children, the children already visited stay as its prefix, and no later child changes group id. |
| `ViewProperties.RenderOnlySlots` | src/View.php:99-107 | Rendering writes only the variables named by rendered children's group ids, at every depth. Skipped children and all other variables are untouched. |
| `ViewProperties.DispatchOrder` | src/View.php:97-114 | A successful render hands the strategy every rendered model exactly once, in post-order: each model after all of its rendered descendants, in its final state. Skipped children are never handed over. |
| `ViewProperties.SlotsAppend` | src/View.php:105-106 | The reference slots after one more rendered child are exactly the update `render` makes: that group's slot becomes its old value (or `''`) followed by the child's output, and other slots are unchanged. |
| `ViewProperties.PureRender` | src/View.php:97-114 | Under a strategy that computes only from the model, `render` equals a declarative reference. Each slot is its old value followed by the outputs of its group's children in child order, and the result is the strategy's value on the filled model. |
| `ViewExamples.RenderLeaf` | src/View.php:109-113 | A model without children is handed to the strategy unchanged, and its result is the render result. |
| `ViewExamples.RootFooBar` | test/ViewTest.php:55-81 | Root with children `foo` and `bar` in the default group renders to `rootfoobar`. |
| `ViewExamples.IgnoredChild` | test/ViewTest.php:83-111 | A child whose group id was set to `null` is never handed to the strategy: only the root is, and the root comes back unchanged. |
| `StrategyListener.Basename` | src/Listener/StrategyListener.php:93 | The basename contains no `/`. |
| `StrategyListener.Extension` | src/Listener/StrategyListener.php:93 | The extension contains no `.` and no `/`. |
| `StrategyListener.ExtensionOf` | src/Listener/StrategyListener.php:93 | `dir/name.ext` has extension `ext`, whatever dots the directory holds. |
| `StrategyListener.NoExtension` | src/Listener/StrategyListener.php:93 | A basename without a dot has the empty extension. |
| `StrategyListener.Invoke` | src/Listener/StrategyListener.php:86-118 | The resolver's exceptions pass through. An unconfigured extension or a service that is not an engine is an UnexpectedValueException. Success happens exactly when the file resolves and its extension maps to an engine, and the result is that engine's rendering of the model. The resolver state is whatever `resolve` left. |
| `StrategyListener.EngineOfResolvedFile` | src/Listener/StrategyListener.php:92-117 | A template resolving to `dir/name.ext` with `ext` mapped to an engine is rendered by that engine, and the module table is untouched. |
| `StrategyListener.ExtensionlessFile` | src/Listener/StrategyListener.php:93-104 | A file without an extension is refused unless the empty extension is configured. |
| `InjectTemplateListener.TemplateDir` | src/Listener/InjectTemplateListener.php:108-112 | The directory part of a derived template contains no backslash. |
| `InjectTemplateListener.ResolveTemplate` | src/Listener/InjectTemplateListener.php:90-118 | The result is an UnexpectedValueException exactly when the class does not start with the module namespace. Otherwise the template contains no capital letter. |
| `InjectTemplateListener.ActionIsLastSegment` | src/Listener/InjectTemplateListener.php:112-115 | The template is the directory part and the action, each dashed and lower-cased on its own and joined by `/`. No dash is put across the `/`. |
| `InjectTemplateListener.LowerCaseActionKept` | src/Listener/InjectTemplateListener.php:112-115 | An action without capitals is the template's last segment verbatim. |
| `InjectTemplateListener.ResolvedTemplateTruthy` | src/Listener/InjectTemplateListener.php:112-117 | A derived template always contains a `/`, so it is never empty in PHP's sense. |
| `InjectTemplateListener.Invoke` | src/Listener/InjectTemplateListener.php:53-77 | Only a view model without a template is acted on. A missing module is a RuntimeException. A context that is not an object is an UnexpectedValueException, and so is a namespace mismatch. The action defaults to `index`, and only the template is set. |
| `InjectTemplateListener.InjectIdempotent` | src/Listener/InjectTemplateListener.php:56 | Once a template is injected, running the listener again with any controller and action changes nothing. |
| `InjectTemplateListener.FakeControllerExample` | test/Listener/InjectTemplateListenerTest.php:127-146 | Controller `ns\FakeController` with action `foo` gets the template `fake/foo`. |
| `InjectModuleListener.ModuleBelow` | src/Listener/InjectModuleListener.php:77-88 | The loop returns the longest registered namespace prefix that ends at a `\`. A RuntimeException happens exactly when there is none. |
| `InjectModuleListener.ResolveModule` | src/Listener/InjectModuleListener.php:73-89 | The result is a registered module that is a prefix of the class name ending just before a `\`, and no longer such prefix is registered. A RuntimeException happens exactly when no namespace prefix of the class is registered. |
| `InjectModuleListener.ResolveModuleIsLongestPrefix` | src/Listener/InjectModuleListener.php:73-89 | A registered namespace of the class is never missed: the result is that namespace or a longer registered one. |
| `InjectModuleListener.InnermostModuleWins` | src/Listener/InjectModuleListener.php:78-83 | With `A` and `A\B` both registered, controller `A\B\C` belongs to `A\B`. |
| `InjectModuleListener.Invoke` | src/Listener/InjectModuleListener.php:36-62 | A non-object context and an unresolvable module are refused before anything changes. Otherwise the layout (created if need be) and a dispatched view model each get the module only if they have none. |
| `InjectModuleListener.InjectIdempotent` | src/Listener/InjectModuleListener.php:53-61 | A second run on what the first left changes neither the view nor the result. |
| `InjectModuleListener.ExistingModuleKept` | src/Listener/InjectModuleListener.php:53-61 | A module already set on the layout or on the result is never overwritten. |
| `ConfigureResolverListener.RegisterModules` | src/Listener/ConfigureResolverListener.php:59-61 | The module loop touches only the module table. |
| `ConfigureResolverListener.ModulesKnown` | src/Listener/ConfigureResolverListener.php:59-61 | After the loop, every loaded module is known under its normalised name. |
| `ConfigureResolverListener.ModulesKept` | src/Listener/ConfigureResolverListener.php:59-61 | The loop loses no key that was known before it. |
| `ConfigureResolverListener.ModulesOnly` | src/Listener/ConfigureResolverListener.php:59-61 | The loop adds no key except the loaded modules' own normalised names. |
| `ConfigureResolverListener.ModuleDirOfLast` | src/Listener/ConfigureResolverListener.php:59-61 | A key holds the directory of the last module registered under it, with the `view/` prefix. |
| `ConfigureResolverListener.RegisterGroup` | src/Listener/ConfigureResolverListener.php:70-83 | A module's list touches only the template table, and fails only with UnexpectedValueException. |
| `ConfigureResolverListener.RegisterEntries` | src/Listener/ConfigureResolverListener.php:68-94 | The section touches only the template table, and fails only with UnexpectedValueException. |
| `ConfigureResolverListener.Invoke` | src/Listener/ConfigureResolverListener.php:54-95 | The module table is the module loop's. With no `view.resolver` section, success and an unchanged template table. The last module is never touched. |
| `ConfigureResolverListener.GroupPlanPairs` | src/Listener/ConfigureResolverListener.php:70-83 | A module's list registers its longest prefix of string paths, each under its full name. It is the whole list exactly when every path is a string. |
| `ConfigureResolverListener.LastWinsHas` | src/Listener/ConfigureResolverListener.php:68-94 | The reference table holds every name of the registration list. |
| `ConfigureResolverListener.LastWinsOnly` | src/Listener/ConfigureResolverListener.php:68-94 | The reference table holds nothing but names of the registration list. |
| `ConfigureResolverListener.LastWinsValue` | src/Listener/ConfigureResolverListener.php:68-94 | Each name maps to the path of its last registration. |
| `ConfigureResolverListener.ApplyIsMerge` | src/Resolver.php:123-128 | Registering pairs one by one is merging their last-wins table over the old table. |
| `ConfigureResolverListener.GroupFollowsPlan` | src/Listener/ConfigureResolverListener.php:70-83 | A module's list registers exactly its plan, and fails exactly when some path is not a string. |
| `ConfigureResolverListener.EntriesFollowPlan` | src/Listener/ConfigureResolverListener.php:68-94 | The section registers exactly its plan, in order, and is refused exactly when some value is invalid. What was registered before the refused value stays registered. |
| `ConfigureResolverListener.ConfiguredTable` | src/Listener/ConfigureResolverListener.php:54-95 | The template table after the listener is the old one overridden by the last path the section gives each name, and the listener succeeds exactly when the section is valid. |
| `ConfigureResolverListener.ShortNameEntry` | src/Listener/ConfigureResolverListener.php:84-85 | A string entry is registered under the name exactly as spelled. |
| `ConfigureResolverListener.FullNameEntry` | src/Listener/ConfigureResolverListener.php:81-82 | A module's template is registered under `getFullTemplateName(module, template)`. |
| `ConfigureResolverListener.InvalidEntryRefused` | src/Listener/ConfigureResolverListener.php:86-93 | A value that is neither a string nor an array is an UnexpectedValueException, and the registrations before it are kept. |
| `ModelListeners.CreateModel` | src/Listener/CreateModelListener.php:27-37 | `false`, view models and responses pass through. Anything else becomes a fresh model holding it as variables, or an InvalidArgumentException when it cannot be variables. |
| `ModelListeners.CreateModelSettles` | src/Listener/CreateModelListener.php:30-35 | A created model holds the result as its variables with no template and no children, and running the listener again changes nothing. |
| `ModelListeners.InjectModel` | src/Listener/InjectModelListener.php:28-36 | A view model is appended to the layout's children (the layout being created if need be), with the earlier children and the layout's other properties kept. Anything else leaves the view alone. |
| `ModelListeners.InjectInOrder` | src/Listener/InjectModelListener.php:31-35 | Two dispatches in a row become the layout's last two children, in dispatch order. |
| `ModelListeners.CreatedModelIsInjected` | src/Listener/InjectModelListener.php:31-35 | A plain result made into a model by the first listener becomes the layout's last child, in group `content`. |
| `ClearOutputListener.PregReplace` | src/Listener/ClearOutputListener.php:37 | The replacement never lengthens the body, since every match is at least one character and becomes one line feed. A body without line feeds is returned unchanged, because every match needs a line feed. |
| `ClearOutputListener.PregReplaceIsClean` | src/Listener/ClearOutputListener.php:37 | The regular-expression engine's leftmost-greedy replacement equals the whitespace-run rule. A run without a line feed is kept; otherwise the run up to its last line feed, plus the carriage returns after it, becomes one line feed. |
| `ClearOutputListener.NoFeedUnchanged` | src/Listener/ClearOutputListener.php:37 | A body without line feeds is left exactly as it is. |
| `ClearOutputListener.VisibleKept` | src/Listener/ClearOutputListener.php:37 | Only whitespace changes: the non-whitespace characters are kept, in order. |
| `ClearOutputListener.NoBlankLinesLeft` | src/Listener/ClearOutputListener.php:37 | The cleaned body has no blank line: between any two line feeds there is a visible character. |
| `ClearOutputListener.CleanAppend` | src/Listener/ClearOutputListener.php:37 | Cleaning works piece by piece when the cut is not inside a whitespace run. |
| `ClearOutputListener.CleanIdempotent` | src/Listener/ClearOutputListener.php:37 | Cleaning a cleaned body changes nothing. |
| `ClearOutputListener.Invoke` | src/Listener/ClearOutputListener.php:26-41 | A response whose Content-Type line starts with `text/html` gets its body cleaned, and nothing else of it changes. Any other result is left as it is. |
| `ClearOutputExamples.BlankLinesRemoved` | test/Listener/ClearOutputListenerTest.php:20-39 | The test's three paragraphs separated by blank lines come out separated by single line breaks, with their leading spaces kept. |
| `ClearOutputExamples.HtmlResponseCleaned` | test/Listener/ClearOutputListenerTest.php:20-39 | The test's HTML response gets the cleaned body, with status and content type unchanged. |
| `ClearOutputExamples.OtherContentTypeKept` | test/Listener/ClearOutputListenerTest.php:52-68 | A response of another content type keeps its blank lines. |
| `ClearOutputExamples.NonResponseKept` | test/Listener/ClearOutputListenerTest.php:41-50 | A result that is not a response is left alone. |

## Left out

- **The filesystem.** `file_exists` and `glob` are an oracle parameter, and
  the order of `glob`'s matches is whatever the oracle returns.
  `PHP_DS`, the directory separator, is fixed to `/`.
- **The service locator.** It is a parameter: a total function from service
  name to service. A `get` of an unknown service, which throws in the
  framework, is not modelled.
- **Event plumbing.**
  - The event bus, `ViewEvent`, `ViewTrait`, `Component.php`,
    `RendererListener` and `ConfigureStrategyListener` are not part of this
    model.
  - The strategy that `render` triggers is a function parameter with a state
    of its own.
  - The trivial accessors are plumbing, replaced by parameters: `setConfig`/`getConfig`, `setServer`/`getServer`, `setResolver`/`getResolver`,
    `setEvents`/`getEvents` and `setView`/`getView`.
- **HTTP messages and streams.** A response is only its status, its
  Content-Type line and its body as a string.
- **Object identity.** PHP objects are shared by reference, while the model
  passes values.
  - A child added twice, or a child mutated after `addChild`, is not modelled.
  - `render` returns the model as it leaves it, instead of mutating it in place.
- **PHP arrays.**
  - Variable bags and configuration sections are string-keyed maps or lists.
  - Integer keys and `array_merge`'s renumbering of them are not modelled.
  - The `(array)` cast is not modelled.
  - A PHP value other than `null` or a string is described only by its string cast.
  - The resolver's template table holds strings only. A `null` value
    passed to `registerTemplatesMap` (src/Resolver.php:110) is not modelled;
    `isset` would then be false for its key (src/Resolver.php:149).
- **Locale.** `strtolower` is the C locale, so only ASCII capitals are
  lowered.
- **The static memo table** of `normalizeModule` is shared by all resolvers.
  It is modelled as an explicit map threaded through
  `NormalizeModuleMemo`, which is proved to return what the unmemoised
  function returns; the rest of the model calls the unmemoised function.
- **The request's `action` attribute** is a parameter. An action that is not
  a string is not modelled.
- **PCRE `\s`** is taken as space, tab, line feed, vertical tab, form feed
  and carriage return, which is PCRE2's set outside UTF mode.
- `ClearOutputListener.PregReplace` and `ClearOutputListener.Invoke`: the
  replacement always succeeds in the model. PHP's `preg_replace` returns
  `null` when PCRE fails, for instance at its backtrack or JIT stack limit on
  a long whitespace run. src/Listener/ClearOutputListener.php:37-38 then
  streams that `null` unchecked, which would give an empty body. The model
  has no PCRE resource limits, so it promises `Clean(body)` for every HTML
  body and does not model this failure return.
- **`getVariables`, `getModulesMap`, `getTemplatesMap`, the property
  getters and `getIterator` (`ViewModels.Children`)** are field reads. They
  have no contract of their own. What they return is stated by the setter
  contracts and by `ViewModels.PropertyRoundTrip`, `ViewModels.FreshDefaults`,
  `ViewModels.ChildrenInOrder` and `TemplateResolver.TemplatesMapRoundTrip`.

=== FILE: clear_output_examples.dfy ===
/**
 * The cases of test/Listener/ClearOutputListenerTest.php, as lemmas about
 * the output-cleaning listener.
 */
module ClearOutputExamples {
  import opened Common
  import opened Php
  import opened ViewModels
  import opened Events
  import opened ClearOutputListener

  /** Blank lines between paragraphs collapse; the space that starts each paragraph stays. */
  lemma BlankLinesRemoved()
    ensures Clean("Lorem ipsum" + "\n\n " + "dolor sit amet," + "\n\n\n " + "consectetur adipiscing elit")
            == "Lorem ipsum" + "\n " + "dolor sit amet," + "\n " + "consectetur adipiscing elit"
  {
    var p1, p2, p3 := "Lorem ipsum", "dolor sit amet,", "consectetur adipiscing elit";
    Paragraph(p1);
    Paragraph(p2);
    Paragraph(p3);
    RunOfFeeds("\n\n ", 1);
    RunOfFeeds("\n\n\n ", 2);
    ParagraphsJoined(p1, "\n\n ", p2, "\n\n\n ", p3);
  }

  /** The three paragraphs of the test are single lines, starting and ending with visible characters. */
  lemma Paragraph(p: string)
    requires p in {"Lorem ipsum", "dolor sit amet,", "consectetur adipiscing elit"}
    ensures '\n' !in p && |p| > 0 && !IsSpace(p[0]) && !IsSpace(p[|p| - 1])
  {
  }

  /** Paragraphs without line feeds, cut by whitespace runs: only the runs change. */
  lemma ParagraphsJoined(p1: string, r1: string, p2: string, r2: string, p3: string)
    requires '\n' !in p1 && '\n' !in p2 && '\n' !in p3
    requires |p1| > 0 && !IsSpace(p1[|p1| - 1])
    requires |p2| > 0 && !IsSpace(p2[0]) && !IsSpace(p2[|p2| - 1])
    requires |p3| > 0 && !IsSpace(p3[0])
    ensures Clean(p1 + r1 + p2 + r2 + p3) == p1 + Clean(r1) + p2 + Clean(r2) + p3
  {
    var c3 := r2 + p3;
    CleanAppend(r2, p3);
    NoFeedUnchanged(p3);
    assert Clean(c3) == Clean(r2) + p3;
    var c2 := p2 + c3;
    CleanAppend(p2, c3);
    NoFeedUnchanged(p2);
    assert Clean(c2) == p2 + Clean(c3);
    assert c2[0] == p2[0];
    var c1 := r1 + c2;
    CleanAppend(r1, c2);
    assert Clean(c1) == Clean(r1) + Clean(c2);
    var c0 := p1 + c1;
    CleanAppend(p1, c1);
    NoFeedUnchanged(p1);
    assert Clean(c0) == p1 + Clean(c1);
    Associate(p1, r1, p2, r2, p3);
    Associate(p1, Clean(r1), p2, Clean(r2), p3);
  }

  lemma Associate(a: string, b: string, c: string, d: string, e: string)
    ensures a + b + c + d + e == a + (b + (c + (d + e)))
  {
  }

  /** Line feeds followed by one space become a line feed and the space. */
  lemma RunOfFeeds(run: string, j: nat)
    requires j + 2 == |run| && run[j + 1] == ' ' && forall i :: 0 <= i <= j ==> run[i] == '\n'
    ensures Clean(run) == "\n "
  {
    assert LastIndexOf(run, '\n') == Some(j);
    CharRunIs(run[j + 1..], '\r', 0);
    assert run[j + 1..] == " ";
    SpaceRunIs(run, |run|);
    CleanRun(run);
    assert run[..|run|] == run && run[|run|..] == "";
  }

  /** The HTML response of the test gets the cleaned body; status and content type stay. */
  lemma HtmlResponseCleaned()
    ensures var body := "Lorem ipsum" + "\n\n " + "dolor sit amet," + "\n\n\n " + "consectetur adipiscing elit";
            Invoke(Reply(Response(200, "text/html", body)))
            == Reply(Response(200, "text/html",
                              "Lorem ipsum" + "\n " + "dolor sit amet," + "\n " + "consectetur adipiscing elit"))
  {
    BlankLinesRemoved();
  }

  /** A response of another content type is left alone, blank lines and all. */
  lemma OtherContentTypeKept(body: string)
    ensures Invoke(Reply(Response(200, "something", body))) == Reply(Response(200, "something", body))
  {
    assert !HasPrefix("something", "text/html") by {
      assert "something"[0] != "text/html"[0];
    }
  }

  /** A result that is not a response is left alone. */
  lemma NonResponseKept(vars: Option<Variables>)
    ensures Invoke(Plain(vars)) == Plain(vars)
  {
  }
}

=== FILE: clear_output_listener.dfy ===
/**
 * Output cleaning (src/Listener/ClearOutputListener.php): the body of an
 * HTML response is passed through
 * `preg_replace("#(\s)*(\n)+(\r)*#", "\n", body)`, which removes blank
 * lines.
 *
 * The replacement is modelled twice: once as the regular-expression engine
 * runs it (leftmost match, greedy quantifiers that give back characters one
 * at a time), and once as a statement about whitespace runs. The two are
 * proved equal, and the properties are proved of the second.
 */
module ClearOutputListener {
  import opened Common
  import opened Php
  import opened Events

  /** PCRE's `\s` outside UTF mode: space, tab, line feed, vertical tab, form feed, carriage return. */
  predicate IsSpace(c: char) {
    c == ' ' || c == '\t' || c == '\n' || c == 11 as char || c == 12 as char || c == '\r'
  }

  /** The number of leading characters of `s` that are whitespace. */
  function SpaceRun(s: string): (r: nat)
    ensures r <= |s|
    ensures forall i :: 0 <= i < r ==> IsSpace(s[i])
    ensures r == |s| || !IsSpace(s[r])
    decreases |s|
  {
    if |s| > 0 && IsSpace(s[0]) then 1 + SpaceRun(s[1..]) else 0
  }

  /** The number of leading characters of `s` equal to `c`. */
  function CharRun(s: string, c: char): (r: nat)
    ensures r <= |s|
    ensures forall i :: 0 <= i < r ==> s[i] == c
    ensures r == |s| || s[r] != c
    decreases |s|
  {
    if |s| > 0 && s[0] == c then 1 + CharRun(s[1..], c) else 0
  }

  // ---------------------------------------------------------------------
  // The regular expression as the engine runs it

  /**
   * The attempt in which `(\s)*` has taken `k` characters: `(\n)+` must
   * take at least one line feed there, greedily, then `(\r)*` takes all the
   * carriage returns that follow. On failure `(\s)*` gives one back.
   */
  function TryWith(s: string, k: nat): (r: Option<nat>)
    requires k <= SpaceRun(s)
    ensures r.Some? ==> 0 < r.value <= |s|
    decreases k
  {
    var feeds := CharRun(s[k..], '\n');
    if feeds > 0 then Some(k + feeds + CharRun(s[k + feeds..], '\r'))
    else if k == 0 then None
    else TryWith(s, k - 1)
  }

  /** A match starting at the first character of `s`: its length, if any. */
  function MatchHere(s: string): (r: Option<nat>)
    ensures r.Some? ==> 0 < r.value <= |s|
  {
    TryWith(s, SpaceRun(s))
  }

  /** `preg_replace`: each leftmost match, in turn, is replaced by one line feed. */
  function PregReplace(s: string): (r: string)
    ensures |r| <= |s|
    ensures '\n' !in s ==> r == s
    decreases |s|
  {
    if |s| == 0 then ""
    else
      match MatchHere(s)
      case Some(e) => MatchNeedsFeed(s); "\n" + PregReplace(s[e..])
      case None => [s[0]] + PregReplace(s[1..])
  }

  // ---------------------------------------------------------------------
  // The same replacement, described by whitespace runs

  /**
   * What becomes of one maximal run of whitespace: kept if it holds no line
   * feed; otherwise everything up to its last line feed, and the carriage
   * returns right after that, collapse into a single line feed.
   */
  function RunImage(run: string): string {
    match LastIndexOf(run, '\n')
    case None => run
    case Some(j) => "\n" + run[j + 1 + CharRun(run[j + 1..], '\r')..]
  }

  /** The body with every whitespace run replaced by its image. */
  function Clean(s: string): string
    decreases |s|
  {
    if |s| == 0 then ""
    else if !IsSpace(s[0]) then [s[0]] + Clean(s[1..])
    else
      var w := SpaceRun(s);
      RunImage(s[..w]) + Clean(s[w..])
  }

  // ---------------------------------------------------------------------
  // The two agree

  /** The run lengths are determined by their three defining facts. */
  lemma SpaceRunIs(s: string, n: nat)
    requires n <= |s| && (forall i :: 0 <= i < n ==> IsSpace(s[i])) && (n == |s| || !IsSpace(s[n]))
    ensures SpaceRun(s) == n
  {
  }

  lemma CharRunIs(s: string, c: char, n: nat)
    requires n <= |s| && (forall i :: 0 <= i < n ==> s[i] == c) && (n == |s| || s[n] != c)
    ensures CharRun(s, c) == n
  {
  }

  /** With no line feed among the characters `(\s)*` could take, or just after, there is no match. */
  lemma {:induction false} NoFeedNoMatch(s: string, k: nat)
    requires k <= SpaceRun(s)
    requires forall i :: 0 <= i <= k && i < |s| ==> s[i] != '\n'
    ensures TryWith(s, k).None?
    decreases k
  {
    CharRunIs(s[k..], '\n', 0);
    if k > 0 {
      NoFeedNoMatch(s, k - 1);
    }
  }

  /** Every match holds a line feed: `(\n)+` takes at least one. */
  lemma MatchNeedsFeed(s: string)
    ensures MatchHere(s).Some? ==> '\n' in s
  {
    if '\n' !in s {
      NoFeedNoMatch(s, SpaceRun(s));
    }
  }

  /**
   * When the run's last line feed is at `j`, every attempt from `k >= j`
   * down ends at `j`: the match is the run up to that line feed and the
   * carriage returns after it.
   */
  lemma {:induction false} LastFeedMatch(s: string, j: nat, k: nat)
    requires j <= k <= SpaceRun(s) && j < SpaceRun(s) && s[j] == '\n'
    requires forall i :: j < i < SpaceRun(s) ==> s[i] != '\n'
    ensures TryWith(s, k) == Some(j + 1 + CharRun(s[j + 1..], '\r'))
    decreases k
  {
    var w := SpaceRun(s);
    if k > j {
      assert k == |s| || s[k] != '\n' by {
        if k == w { assert k == |s| || !IsSpace(s[k]); }
      }
      TryWithSkip(s, k);
      LastFeedMatch(s, j, k - 1);
    } else {
      assert j + 1 == |s| || s[j + 1] != '\n' by {
        if j + 1 == w { assert j + 1 == |s| || !IsSpace(s[j + 1]); }
      }
      TryWithFeed(s, j);
    }
  }

  /** No line feed at `k`: `(\s)*` gives a character back. */
  lemma TryWithSkip(s: string, k: nat)
    requires 0 < k <= SpaceRun(s) && (k == |s| || s[k] != '\n')
    ensures TryWith(s, k) == TryWith(s, k - 1)
  {
    CharRunIs(s[k..], '\n', 0);
  }

  /** A single line feed at `j`: the match ends after it and the carriage returns that follow. */
  lemma TryWithFeed(s: string, j: nat)
    requires j <= SpaceRun(s) && j < |s| && s[j] == '\n' && (j + 1 == |s| || s[j + 1] != '\n')
    ensures TryWith(s, j) == Some(j + 1 + CharRun(s[j + 1..], '\r'))
  {
    assert s[j..][1..] == s[j + 1..];
    CharRunIs(s[j..], '\n', 1);
  }

  /** A run without line feeds is copied, and cleaning goes on after it. */
  lemma PlainRun(t: string, m: nat)
    requires m == SpaceRun(t)
    requires forall i :: 0 <= i < m ==> t[i] != '\n'
    ensures Clean(t) == t[..m] + Clean(t[m..])
  {
    if m > 0 {
      assert LastIndexOf(t[..m], '\n').None?;
    }
  }

  /** Carriage returns counted in the run are the ones counted in the whole rest. */
  lemma CarriageReturnsInRun(s: string, j: nat)
    requires j < SpaceRun(s)
    ensures CharRun(s[..SpaceRun(s)][j + 1..], '\r') == CharRun(s[j + 1..], '\r')
    ensures j + 1 + CharRun(s[j + 1..], '\r') <= SpaceRun(s)
  {
    var w := SpaceRun(s);
    var inner := s[..w][j + 1..];
    var t := s[j + 1..];
    var n := CharRun(inner, '\r');
    assert forall i :: 0 <= i < |inner| ==> inner[i] == t[i];
    assert forall i :: 0 <= i < n ==> t[i] == '\r';
    if n == |inner| {
      assert n == |t| || t[n] == s[w];
    } else {
      assert t[n] == inner[n];
    }
    CharRunIs(t, '\r', n);
  }

  /** At a visible character there is no match: it is copied. */
  lemma VisibleStep(s: string)
    requires |s| > 0 && !IsSpace(s[0])
    requires PregReplace(s[1..]) == Clean(s[1..])
    ensures PregReplace(s) == Clean(s)
  {
    NoFeedNoMatch(s, 0);
  }

  /** A run without line feeds has no match in it: both sides copy its first character. */
  lemma PlainRunStep(s: string)
    requires |s| > 0 && IsSpace(s[0]) && LastIndexOf(s[..SpaceRun(s)], '\n').None?
    ensures PregReplace(s) == [s[0]] + PregReplace(s[1..])
    ensures Clean(s) == [s[0]] + Clean(s[1..])
  {
    var w := SpaceRun(s);
    NoFeedInRun(s, w);
    NoFeedNoMatch(s, w);
    PregReplaceNoMatch(s);
    SplitHead(s, w);
    RestOfRun(s, w, 0, 1);
    PlainRun(s[1..], w - 1);
    CleanRun(s);
    Regroup([s[0]], s[1..][..w - 1], Clean(s[w..]));
  }

  lemma SplitHead(s: string, w: nat)
    requires 1 <= w <= |s|
    ensures [s[0]] + s[1..][..w - 1] == s[..w]
    ensures s[1..][w - 1..] == s[w..]
  {
  }

  lemma NoFeedInRun(s: string, w: nat)
    requires w == SpaceRun(s) && LastIndexOf(s[..w], '\n').None?
    ensures forall i :: 0 <= i <= w && i < |s| ==> s[i] != '\n'
  {
    assert forall i :: 0 <= i < w ==> s[..w][i] == s[i];
  }

  /**
   * A run with line feeds is matched up to its last one and the carriage
   * returns after it, `e` characters in all; the run's image is that match
   * replaced by one line feed.
   */
  lemma FeedRunMatch(s: string, j: nat, e: nat)
    requires |s| > 0 && IsSpace(s[0]) && LastIndexOf(s[..SpaceRun(s)], '\n') == Some(j)
    requires e == j + 1 + CharRun(s[j + 1..], '\r')
    ensures e <= SpaceRun(s)
    ensures PregReplace(s) == "\n" + PregReplace(s[e..])
  {
    var w := SpaceRun(s);
    LastFeedInRun(s, w, j);
    LastFeedMatch(s, j, w);
    CarriageReturnsInRun(s, j);
    PregReplaceMatch(s, e);
  }

  lemma FeedRunClean(s: string, j: nat, e: nat)
    requires |s| > 0 && IsSpace(s[0]) && LastIndexOf(s[..SpaceRun(s)], '\n') == Some(j)
    requires e == j + 1 + CharRun(s[j + 1..], '\r')
    ensures e <= SpaceRun(s)
    ensures Clean(s) == "\n" + Clean(s[e..])
  {
    var w := SpaceRun(s);
    LastFeedInRun(s, w, j);
    FeedRunImage(s, w, j);
    CleanRun(s);
    PlainRunAt(s, w, j, e);
    Regroup("\n", s[e..w], Clean(s[w..]));
  }

  /** After position `e`, a run without further line feeds is copied up to its end. */
  lemma PlainRunAt(s: string, w: nat, j: nat, e: nat)
    requires w == SpaceRun(s) && j < e <= w
    requires forall i :: j < i < w ==> s[i] != '\n'
    ensures Clean(s[e..]) == s[e..w] + Clean(s[w..])
  {
    RestOfRun(s, w, j, e);
    PlainRun(s[e..], w - e);
    SliceOfSlice(s, e, w);
  }

  /** The image of a run whose last line feed is at `j`. */
  lemma FeedRunImage(s: string, w: nat, j: nat)
    requires w == SpaceRun(s) && LastIndexOf(s[..w], '\n') == Some(j)
    ensures j + 1 + CharRun(s[j + 1..], '\r') <= w
    ensures RunImage(s[..w]) == "\n" + s[j + 1 + CharRun(s[j + 1..], '\r')..w]
  {
    var run := s[..w];
    var e := j + 1 + CharRun(s[j + 1..], '\r');
    CarriageReturnsInRun(s, j);
    assert CharRun(run[j + 1..], '\r') == e - j - 1;
    assert RunImage(run) == "\n" + run[e..];
    assert run[e..] == s[e..w];
  }

  /** What follows position `e` of a run is the rest of the run, free of line feeds. */
  lemma RestOfRun(s: string, w: nat, j: nat, e: nat)
    requires w == SpaceRun(s) && j < e <= w
    requires forall i :: j < i < w ==> s[i] != '\n'
    ensures SpaceRun(s[e..]) == w - e
    ensures forall i :: 0 <= i < w - e ==> s[e..][i] != '\n'
  {
    var t := s[e..];
    assert forall i :: 0 <= i < |t| ==> t[i] == s[e + i];
    SpaceRunIs(t, w - e);
  }

  lemma SliceOfSlice(s: string, e: nat, w: nat)
    requires e <= w <= |s|
    ensures s[e..][w - e..] == s[w..]
    ensures s[e..][..w - e] == s[e..w]
  {
  }

  /** One step of the replacement where a match starts. */
  lemma PregReplaceMatch(s: string, e: nat)
    requires |s| > 0 && MatchHere(s) == Some(e)
    ensures PregReplace(s) == "\n" + PregReplace(s[e..])
  {
  }

  /** One step of the replacement where no match starts. */
  lemma PregReplaceNoMatch(s: string)
    requires |s| > 0 && MatchHere(s).None?
    ensures PregReplace(s) == [s[0]] + PregReplace(s[1..])
  {
  }

  /** One step of cleaning at a whitespace run. */
  lemma CleanRun(s: string)
    requires |s| > 0 && IsSpace(s[0])
    ensures Clean(s) == RunImage(s[..SpaceRun(s)]) + Clean(s[SpaceRun(s)..])
  {
  }

  lemma LastFeedInRun(s: string, w: nat, j: nat)
    requires w == SpaceRun(s) && LastIndexOf(s[..w], '\n') == Some(j)
    ensures j < w && s[j] == '\n'
    ensures forall i :: j < i < w ==> s[i] != '\n'
  {
    assert forall i :: 0 <= i < w ==> s[..w][i] == s[i];
  }

  /** The engine's replacement is the run description. */
  lemma {:induction false} PregReplaceIsClean(s: string)
    ensures PregReplace(s) == Clean(s)
    decreases |s|
  {
    if |s| > 0 {
      if !IsSpace(s[0]) {
        PregReplaceIsClean(s[1..]);
        VisibleStep(s);
      }
      else {
        match LastIndexOf(s[..SpaceRun(s)], '\n')
        case None =>
          PregReplaceIsClean(s[1..]);
          PlainRunStep(s);
        case Some(j) =>
          var e := j + 1 + CharRun(s[j + 1..], '\r');
          FeedRunMatch(s, j, e);
          FeedRunClean(s, j, e);
          PregReplaceIsClean(s[e..]);
      }
    }
  }

  // ---------------------------------------------------------------------
  // What cleaning promises

  /** A body without line feeds is left exactly as it is. */
  lemma {:induction false} NoFeedUnchanged(s: string)
    requires '\n' !in s
    ensures Clean(s) == s
    decreases |s|
  {
    if |s| > 0 {
      if IsSpace(s[0]) {
        var w := SpaceRun(s);
        assert s[..w] + s[w..] == s;
        assert '\n' !in s[w..];
        PlainRun(s, w);
        NoFeedUnchanged(s[w..]);
      } else {
        assert [s[0]] + s[1..] == s;
        assert '\n' !in s[1..];
        NoFeedUnchanged(s[1..]);
      }
    }
  }

  /** The characters that are not whitespace, in order. */
  function Visible(s: string): (r: string)
    ensures forall i :: 0 <= i < |r| ==> !IsSpace(r[i])
    decreases |s|
  {
    if |s| == 0 then ""
    else if IsSpace(s[0]) then Visible(s[1..])
    else [s[0]] + Visible(s[1..])
  }

  lemma {:induction false} VisibleAppend(a: string, b: string)
    ensures Visible(a + b) == Visible(a) + Visible(b)
    decreases |a|
  {
    if |a| == 0 {
      assert a + b == b;
    } else {
      assert (a + b)[0] == a[0] && (a + b)[1..] == a[1..] + b;
      VisibleAppend(a[1..], b);
    }
  }

  lemma {:induction false} VisibleOfSpaces(s: string)
    requires forall i :: 0 <= i < |s| ==> IsSpace(s[i])
    ensures Visible(s) == ""
    decreases |s|
  {
    if |s| > 0 {
      VisibleOfSpaces(s[1..]);
    }
  }

  /** Only whitespace changes: the visible text is kept, in order. */
  lemma {:induction false} VisibleKept(s: string)
    ensures Visible(Clean(s)) == Visible(s)
    decreases |s|
  {
    if |s| > 0 {
      if !IsSpace(s[0]) {
        VisibleKept(s[1..]);
        VisibleCharKept(s, Clean(s[1..]));
      } else {
        VisibleKept(s[SpaceRun(s)..]);
        VisibleRunKept(s);
      }
    }
  }

  /** A leading whitespace run adds nothing visible, before or after cleaning. */
  lemma VisibleRunKept(s: string)
    requires |s| > 0 && IsSpace(s[0])
    requires Visible(Clean(s[SpaceRun(s)..])) == Visible(s[SpaceRun(s)..])
    ensures Visible(Clean(s)) == Visible(s)
  {
    var w := SpaceRun(s);
    var run, rest := s[..w], s[w..];
    assert run + rest == s;
    var img := RunImage(run);
    CleanRun(s);
    assert Clean(s) == img + Clean(rest);
    VisibleOfSpaces(run);
    RunImageSpaces(run);
    VisibleOfSpaces(img);
    VisibleAppend(img, Clean(rest));
    VisibleAppend(run, rest);
    assert Visible(Clean(s)) == Visible(Clean(rest));
    assert Visible(s) == Visible(rest);
  }

  /** A visible first character is kept by both Clean and Visible. */
  lemma VisibleCharKept(s: string, rest: string)
    requires |s| > 0 && !IsSpace(s[0]) && rest == Clean(s[1..])
    ensures Clean(s) == [s[0]] + rest
    ensures Visible(Clean(s)) == [s[0]] + Visible(rest)
    ensures Visible(s) == [s[0]] + Visible(s[1..])
  {
    assert ([s[0]] + rest)[0] == s[0] && ([s[0]] + rest)[1..] == rest;
  }

  /** A run's image is whitespace, and holds at most one line feed, at its start. */
  lemma RunImageSpaces(run: string)
    requires forall i :: 0 <= i < |run| ==> IsSpace(run[i])
    ensures forall i :: 0 <= i < |RunImage(run)| ==> IsSpace(RunImage(run)[i])
    ensures forall i :: 0 < i < |RunImage(run)| ==> RunImage(run)[i] != '\n'
    ensures '\n' in run ==> |RunImage(run)| > 0 && RunImage(run)[0] == '\n'
    ensures '\n' in run && |RunImage(run)| > 1 ==> RunImage(run)[1] != '\r'
    ensures '\n' !in run ==> RunImage(run) == run
  {
    match LastIndexOf(run, '\n')
    case None =>
    case Some(j) =>
      var e := j + 1 + CharRun(run[j + 1..], '\r');
      var img := "\n" + run[e..];
      forall i | 0 < i < |img|
        ensures IsSpace(img[i]) && img[i] != '\n'
      {
        assert img[i] == run[e + i - 1];
      }
  }

  /** A cleaned body starts with the body's first character when that is not whitespace. */
  lemma CleanStartsVisible(s: string)
    requires |s| > 0 && !IsSpace(s[0])
    ensures |Clean(s)| > 0 && Clean(s)[0] == s[0]
  {
  }

  /** Two line feeds with only whitespace between them: a blank line. */
  predicate NoBlankLines(t: string) {
    forall i, j :: 0 <= i < j < |t| && t[i] == '\n' && t[j] == '\n' ==> exists k :: i < k < j && !IsSpace(t[k])
  }

  /**
   * A piece with at most one line feed, at its start, can be put before a
   * text without blank lines when the text then starts with a visible
   * character.
   */
  lemma AppendNoBlank(head: string, tail: string)
    requires NoBlankLines(tail)
    requires forall i :: 0 < i < |head| ==> head[i] != '\n'
    requires |head| > 0 && head[0] == '\n' && |tail| > 0 ==> !IsSpace(tail[0])
    ensures NoBlankLines(head + tail)
  {
    var t := head + tail;
    forall i, j | 0 <= i < j < |t| && t[i] == '\n' && t[j] == '\n'
      ensures exists k :: i < k < j && !IsSpace(t[k])
    {
      if i >= |head| {
        assert tail[i - |head|] == '\n' && tail[j - |head|] == '\n';
        var k :| i - |head| < k < j - |head| && !IsSpace(tail[k]);
        assert t[k + |head|] == tail[k];
        assert i < k + |head| < j && !IsSpace(t[k + |head|]);
      } else {
        assert i == 0 && head[0] == '\n';
        assert t[|head|] == tail[0];
        assert j > |head|;
        assert i < |head| < j && !IsSpace(t[|head|]);
      }
    }
  }

  /** Cleaning leaves no blank line: between any two line feeds there is a visible character. */
  lemma {:induction false} NoBlankLinesLeft(s: string)
    ensures NoBlankLines(Clean(s))
    decreases |s|
  {
    if |s| > 0 {
      if !IsSpace(s[0]) {
        NoBlankLinesLeft(s[1..]);
        AppendNoBlank([s[0]], Clean(s[1..]));
      } else {
        var w := SpaceRun(s);
        RunImageSpaces(s[..w]);
        if w < |s| {
          CleanStartsVisible(s[w..]);
        }
        NoBlankLinesLeft(s[w..]);
        AppendNoBlank(RunImage(s[..w]), Clean(s[w..]));
      }
    }
  }

  /**
   * Cleaning works piece by piece when the cut does not fall inside a
   * whitespace run.
   */
  lemma {:induction false} CleanAppend(a: string, b: string)
    requires |a| == 0 || |b| == 0 || !IsSpace(a[|a| - 1]) || !IsSpace(b[0])
    ensures Clean(a + b) == Clean(a) + Clean(b)
    decreases |a|
  {
    if |a| == 0 {
      assert a + b == b;
    } else if |b| == 0 {
      assert a + b == a;
    } else if !IsSpace(a[0]) {
      assert (a + b)[1..] == a[1..] + b;
      CleanAppend(a[1..], b);
      Regroup([a[0]], Clean(a[1..]), Clean(b));
    } else {
      var w := SpaceRun(a);
      if w == |a| {
        assert IsSpace(a[w - 1]);
      }
      SpaceRunIs(a + b, w);
      SliceOfAppend(a, b, w);
      CleanAppend(a[w..], b);
      CleanRun(a);
      CleanRun(a + b);
      Regroup(RunImage(a[..w]), Clean(a[w..]), Clean(b));
    }
  }

  lemma SliceOfAppend(a: string, b: string, w: nat)
    requires w <= |a|
    ensures (a + b)[..w] == a[..w]
    ensures (a + b)[w..] == a[w..] + b
  {
  }

  /** A run's image is its own image: cleaning it again changes nothing. */
  lemma CleanOfImage(run: string)
    requires forall i :: 0 <= i < |run| ==> IsSpace(run[i])
    ensures Clean(RunImage(run)) == RunImage(run)
  {
    var img := RunImage(run);
    RunImageSpaces(run);
    if |img| > 0 {
      SpaceRunIs(img, |img|);
      CleanRun(img);
      assert img[|img|..] == "";
      assert img[..|img|] == img;
      if '\n' in run {
        assert LastIndexOf(img, '\n') == Some(0);
        CharRunIs(img[1..], '\r', 0);
      }
    }
  }

  /** Cleaning is idempotent: a cleaned body is clean. */
  lemma {:induction false} CleanIdempotent(s: string)
    ensures Clean(Clean(s)) == Clean(s)
    decreases |s|
  {
    if |s| > 0 {
      if !IsSpace(s[0]) {
        CleanIdempotent(s[1..]);
        CleanAppend([s[0]], Clean(s[1..]));
      } else {
        var w := SpaceRun(s);
        var img := RunImage(s[..w]);
        CleanIdempotent(s[w..]);
        RunImageSpaces(s[..w]);
        if w < |s| {
          CleanStartsVisible(s[w..]);
        }
        CleanAppend(img, Clean(s[w..]));
        CleanOfImage(s[..w]);
      }
    }
  }

  // ---------------------------------------------------------------------
  // The listener

  /** Whether a response is HTML: its Content-Type line starts with `text/html`. */
  predicate IsHtml(r: Response) {
    HasPrefix(r.contentType, "text/html")
  }

  /**
   * `__invoke`: a response whose Content-Type line starts with `text/html`
   * gets its body cleaned, and nothing else of it changes; any other result
   * is left as it is.
   */
  function Invoke(result: DispatchResult): (r: DispatchResult)
    ensures !(result.Reply? && IsHtml(result.response)) ==> r == result
    ensures result.Reply? && IsHtml(result.response) ==>
              r == Reply(result.response.(body := Clean(result.response.body)))
  {
    match result
    case Reply(resp) =>
      PrefixTest(resp.contentType, "text/html");
      if IndexOf(resp.contentType, "text/html") == Some(0) then
        PregReplaceIsClean(resp.body);
        Reply(resp.(body := PregReplace(resp.body)))
      else result
    case _ => result
  }
}

=== FILE: common.dfy ===
/**
 * Failure-carrying values shared by every component of the view layer.
 *
 * The PHP code signals failures with exceptions. A component that throws
 * before touching any state is modelled with `Result`; a component that may
 * throw after it has already changed some state (the resolver cache, a
 * variable bag that was cleared first, registrations made without rollback)
 * returns a `Step`, which carries the state as it is when control leaves the
 * call, whether normally or by an exception.
 */
module Common {

  /** PHP `null` versus a present value. */
  datatype Option<+T> = None | Some(value: T)

  /** The exception classes the view layer throws, by class. */
  datatype Error =
    | TemplateNotFound   // Es\View\Exception\TemplateNotFoundException
    | Runtime            // RuntimeException
    | UnexpectedValue    // UnexpectedValueException
    | InvalidArgument    // InvalidArgumentException

  /** A call that either returns a value or throws, with no state change on a throw. */
  datatype Result<+T> = Ok(value: T) | Err(error: Error)

  /** A call over a state `S`: its outcome and the state left behind. */
  datatype Step<+T, +S> = Step(result: Result<T>, state: S)
}

=== FILE: configure_resolver_listener.dfy ===
/**
 * Resolver configuration (src/Listener/ConfigureResolverListener.php): every
 * loaded module's directory is registered, then the `view.resolver` section
 * of the system configuration is loaded into the template table.
 *
 * The section is a list of entries in configuration order. An entry maps a
 * short template name to a path, or a module name to a list of its own
 * templates and their paths; anything else is refused. Registrations are
 * made as the entries are read and are not undone when a later one is
 * refused.
 */
module ConfigureResolverListener {
  import opened Common
  import opened Php
  import opened ViewModels
  import opened TemplateResolver

  /** One value of the `view.resolver` section. */
  datatype Spec =
    | Single(path: string)                    // 'name' => 'path'
    | Group(paths: seq<(string, Value)>)      // 'Module' => ['name' => path, ...]
    | Neither                                 // any other value

  // ---------------------------------------------------------------------
  // The listener as written: registration one entry at a time

  /** The module loop: each module's directory under its name, with the default `view/` prefix. */
  function RegisterModules(st: ResolverState, modules: seq<(string, string)>): (r: ResolverState)
    ensures r.templatesMap == st.templatesMap && r.lastModule == st.lastModule
    decreases |modules|
  {
    if |modules| == 0 then st
    else
      var n := |modules| - 1;
      RegisterModulePath(RegisterModules(st, modules[..n]), modules[n].0, modules[n].1)
  }

  /** The module loop loses no key that was known before it. */
  lemma {:induction false} ModulesKept(st: ResolverState, modules: seq<(string, string)>, k: string)
    requires k in st.modulesMap
    ensures k in RegisterModules(st, modules).modulesMap
    decreases |modules|
  {
    if |modules| > 0 {
      var n := |modules| - 1;
      RegisterModulesLast(st, modules);
      ModulesKept(st, modules[..n], k);
    }
  }

  /** After the module loop every module is known under its normalised name. */
  lemma {:induction false} ModulesKnown(st: ResolverState, modules: seq<(string, string)>, i: nat)
    requires i < |modules|
    ensures NormalizeModule(modules[i].0) in RegisterModules(st, modules).modulesMap
    decreases |modules|
  {
    var n := |modules| - 1;
    var before := RegisterModules(st, modules[..n]);
    RegisterModulesLast(st, modules);
    if i < n {
      assert modules[..n][i] == modules[i];
      ModulesKnown(st, modules[..n], i);
      KeyKept(before, modules[n].0, modules[n].1, NormalizeModule(modules[i].0));
    } else {
      assert i == n;
      KeyAdded(before, modules[n].0, modules[n].1);
      assert NormalizeModule(modules[i].0) in RegisterModules(st, modules).modulesMap;
    }
  }

  lemma KeyAdded(st: ResolverState, moduleName: string, path: string)
    ensures NormalizeModule(moduleName) in RegisterModulePath(st, moduleName, path).modulesMap
  {
  }

  lemma KeyKept(st: ResolverState, moduleName: string, path: string, k: string)
    requires k in st.modulesMap
    ensures k in RegisterModulePath(st, moduleName, path).modulesMap
  {
  }

  /** One step of the module loop: the last module is registered over what the others left. */
  lemma RegisterModulesLast(st: ResolverState, modules: seq<(string, string)>)
    requires |modules| > 0
    ensures var n := |modules| - 1;
            RegisterModules(st, modules) == RegisterModulePath(RegisterModules(st, modules[..n]), modules[n].0, modules[n].1)
  {
  }

  /** The module loop adds no key but the modules' own names. */
  lemma {:induction false} ModulesOnly(st: ResolverState, modules: seq<(string, string)>, k: string)
    requires k in RegisterModules(st, modules).modulesMap && k !in st.modulesMap
    ensures exists i :: 0 <= i < |modules| && NormalizeModule(modules[i].0) == k
    decreases |modules|
  {
    var n := |modules| - 1;
    if k != NormalizeModule(modules[n].0) {
      ModulesOnly(st, modules[..n], k);
      var i :| 0 <= i < n && NormalizeModule(modules[..n][i].0) == k;
      assert modules[..n][i] == modules[i];
    }
  }

  /** A module's directory is the one of the last module registered under the same name. */
  lemma {:induction false} ModuleDirOfLast(st: ResolverState, modules: seq<(string, string)>, i: nat)
    requires i < |modules| && LastOfKey(modules, i)
    ensures var r := RegisterModules(st, modules);
            NormalizeModule(modules[i].0) in r.modulesMap
            && r.modulesMap[NormalizeModule(modules[i].0)] == ModuleDir(modules[i].1, true)
    decreases |modules|
  {
    var n := |modules| - 1;
    RegisterModulesLast(st, modules);
    if i < n {
      assert modules[..n][i] == modules[i];
      assert LastOfKey(modules[..n], i);
      ModuleDirOfLast(st, modules[..n], i);
    }
  }

  /** No later module has the same key as module `i`. */
  ghost predicate LastOfKey(modules: seq<(string, string)>, i: int)
    requires 0 <= i < |modules|
  {
    forall j :: i < j < |modules| ==> NormalizeModule(modules[j].0) != NormalizeModule(modules[i].0)
  }

  /** The inner loop over a module's templates: a path that is not a string stops it. */
  function RegisterGroup(st: ResolverState, key: string, paths: seq<(string, Value)>): (r: Step<(), ResolverState>)
    ensures r.state.modulesMap == st.modulesMap && r.state.lastModule == st.lastModule
    ensures r.result.Err? ==> r.result.error == UnexpectedValue
    decreases |paths|
  {
    if |paths| == 0 then Step(Ok(()), st)
    else
      match paths[0].1
      case Str(p) => RegisterGroup(RegisterTemplatePath(st, GetFullTemplateName(key, paths[0].0), p), key, paths[1..])
      case _ => Step(Err(UnexpectedValue), st)
  }

  /** The outer loop over the section's entries. */
  function RegisterEntries(st: ResolverState, entries: seq<(string, Spec)>): (r: Step<(), ResolverState>)
    ensures r.state.modulesMap == st.modulesMap && r.state.lastModule == st.lastModule
    ensures r.result.Err? ==> r.result.error == UnexpectedValue
    decreases |entries|
  {
    if |entries| == 0 then Step(Ok(()), st)
    else
      var (key, spec) := entries[0];
      match spec
      case Single(p) => RegisterEntries(RegisterTemplatePath(st, key, p), entries[1..])
      case Group(paths) =>
        var g := RegisterGroup(st, key, paths);
        if g.result.Err? then g else RegisterEntries(g.state, entries[1..])
      case Neither => Step(Err(UnexpectedValue), st)
  }

  /**
   * `__invoke`: the modules first, then the `view.resolver` section if it
   * is set (`None` when it is not).
   */
  function Invoke(st: ResolverState, modules: seq<(string, string)>, section: Option<seq<(string, Spec)>>)
    : (r: Step<(), ResolverState>)
    ensures r.state.modulesMap == RegisterModules(st, modules).modulesMap
    ensures r.state.lastModule == st.lastModule
    ensures section.None? ==> r.result.Ok? && r.state.templatesMap == st.templatesMap
    ensures r.result.Err? ==> r.result.error == UnexpectedValue
  {
    var withModules := RegisterModules(st, modules);
    match section
    case None => Step(Ok(()), withModules)
    case Some(entries) => RegisterEntries(withModules, entries)
  }

  // ---------------------------------------------------------------------
  // The reference: the list of registrations the section stands for

  /** Every path of a module's list is a string. */
  predicate GroupValid(paths: seq<(string, Value)>) {
    forall i :: 0 <= i < |paths| ==> paths[i].1.Str?
  }

  /** Every entry of the section is a string or a valid list. */
  predicate Valid(entries: seq<(string, Spec)>) {
    forall i :: 0 <= i < |entries| ==> entries[i].1.Single? || (entries[i].1.Group? && GroupValid(entries[i].1.paths))
  }

  /** The (full name, path) pairs of a module's list, up to its first path that is not a string. */
  function GroupPlan(key: string, paths: seq<(string, Value)>): (r: seq<(string, string)>)
    ensures |r| <= |paths|
    decreases |paths|
  {
    if |paths| == 0 || !paths[0].1.Str? then []
    else [(GetFullTemplateName(key, paths[0].0), paths[0].1.s)] + GroupPlan(key, paths[1..])
  }

  /**
   * The plan of a module's list is its longest prefix of string paths, each
   * under its full name: the whole list exactly when the list is valid.
   */
  lemma {:induction false} GroupPlanPairs(key: string, paths: seq<(string, Value)>)
    ensures var r := GroupPlan(key, paths);
            && (forall i :: 0 <= i < |r| ==> paths[i].1.Str? && r[i] == (GetFullTemplateName(key, paths[i].0), paths[i].1.s))
            && (|r| < |paths| ==> !paths[|r|].1.Str?)
            && (GroupValid(paths) <==> |r| == |paths|)
    decreases |paths|
  {
    if |paths| > 0 && paths[0].1.Str? {
      var rest := GroupPlan(key, paths[1..]);
      var r := GroupPlan(key, paths);
      GroupPlanPairs(key, paths[1..]);
      assert r == [(GetFullTemplateName(key, paths[0].0), paths[0].1.s)] + rest;
      forall i | 0 < i < |r|
        ensures paths[i].1.Str? && r[i] == (GetFullTemplateName(key, paths[i].0), paths[i].1.s)
      {
        assert r[i] == rest[i - 1] && paths[1..][i - 1] == paths[i];
      }
      if |r| < |paths| {
        assert paths[1..][|rest|] == paths[|r|];
      }
      GroupValidTail(paths);
    }
  }

  lemma GroupValidTail(paths: seq<(string, Value)>)
    requires |paths| > 0
    ensures GroupValid(paths) <==> paths[0].1.Str? && GroupValid(paths[1..])
  {
    if paths[0].1.Str? && GroupValid(paths[1..]) {
      assert forall i :: 1 <= i < |paths| ==> paths[i] == paths[1..][i - 1];
    }
  }

  /** The (name, path) pairs of the section, in order, up to its first refused value. */
  function Plan(entries: seq<(string, Spec)>): seq<(string, string)>
    decreases |entries|
  {
    if |entries| == 0 then []
    else
      var (key, spec) := entries[0];
      match spec
      case Single(p) => [(key, p)] + Plan(entries[1..])
      case Group(paths) => GroupPlan(key, paths) + (if GroupValid(paths) then Plan(entries[1..]) else [])
      case Neither => []
  }

  /** Registering a list of pairs, one by one. */
  function Apply(st: ResolverState, pairs: seq<(string, string)>): ResolverState
    decreases |pairs|
  {
    if |pairs| == 0 then st else Apply(RegisterTemplatePath(st, pairs[0].0, pairs[0].1), pairs[1..])
  }

  /** No later pair has the same name as pair `i`. */
  ghost predicate LastOfName(pairs: seq<(string, string)>, i: int)
    requires 0 <= i < |pairs|
  {
    forall j :: i < j < |pairs| ==> pairs[j].0 != pairs[i].0
  }

  /** The table a list of pairs makes, the later pair winning. */
  function LastWins(pairs: seq<(string, string)>): map<string, string>
    decreases |pairs|
  {
    if |pairs| == 0 then map[]
    else
      var n := |pairs| - 1;
      LastWins(pairs[..n])[pairs[n].0 := pairs[n].1]
  }

  /** The last-wins table holds every name of the list. */
  lemma {:induction false} LastWinsHas(pairs: seq<(string, string)>, i: nat)
    requires i < |pairs|
    ensures pairs[i].0 in LastWins(pairs)
    decreases |pairs|
  {
    var n := |pairs| - 1;
    if i < n {
      assert pairs[..n][i] == pairs[i];
      LastWinsHas(pairs[..n], i);
    }
  }

  /** The last-wins table holds nothing but the names of the list. */
  lemma {:induction false} LastWinsOnly(pairs: seq<(string, string)>, k: string)
    requires k in LastWins(pairs)
    ensures exists i :: 0 <= i < |pairs| && pairs[i].0 == k
    decreases |pairs|
  {
    var n := |pairs| - 1;
    if k != pairs[n].0 {
      LastWinsOnly(pairs[..n], k);
      var i :| 0 <= i < n && pairs[..n][i].0 == k;
      assert pairs[..n][i] == pairs[i];
    }
  }

  /** Each name maps to the path of its last pair. */
  lemma {:induction false} LastWinsValue(pairs: seq<(string, string)>, i: nat)
    requires i < |pairs| && LastOfName(pairs, i)
    ensures pairs[i].0 in LastWins(pairs) && LastWins(pairs)[pairs[i].0] == pairs[i].1
    decreases |pairs|
  {
    var n := |pairs| - 1;
    if i < n {
      assert pairs[..n][i] == pairs[i];
      assert LastOfName(pairs[..n], i);
      LastWinsValue(pairs[..n], i);
    }
  }

  // ---------------------------------------------------------------------
  // The listener against the reference

  lemma {:induction false} ApplyAppend(st: ResolverState, a: seq<(string, string)>, b: seq<(string, string)>)
    ensures Apply(st, a + b) == Apply(Apply(st, a), b)
    decreases |a|
  {
    if |a| > 0 {
      assert (a + b)[0] == a[0] && (a + b)[1..] == a[1..] + b;
      ApplyAppend(RegisterTemplatePath(st, a[0].0, a[0].1), a[1..], b);
    } else {
      assert a + b == b;
    }
  }

  /** Registering pairs one by one merges their last-wins table over the old one. */
  lemma {:induction false} ApplyIsMerge(st: ResolverState, pairs: seq<(string, string)>)
    ensures Apply(st, pairs) == st.(templatesMap := st.templatesMap + LastWins(pairs))
    decreases |pairs|
  {
    if |pairs| == 0 {
      assert st.templatesMap + map[] == st.templatesMap;
    } else {
      var n := |pairs| - 1;
      var (k, v) := pairs[n];
      ApplyIsMerge(st, pairs[..n]);
      ApplyLast(st, pairs);
      MergeUpdate(st.templatesMap, LastWins(pairs[..n]), k, v);
    }
  }

  /** Registering a list is registering all but its last pair, then the last. */
  lemma ApplyLast(st: ResolverState, pairs: seq<(string, string)>)
    requires |pairs| > 0
    ensures var n := |pairs| - 1;
            Apply(st, pairs) == RegisterTemplatePath(Apply(st, pairs[..n]), pairs[n].0, pairs[n].1)
  {
    var n := |pairs| - 1;
    ApplyAppend(st, pairs[..n], [pairs[n]]);
    assert pairs[..n] + [pairs[n]] == pairs;
    var mid := Apply(st, pairs[..n]);
    assert [pairs[n]][1..] == [];
    assert Apply(mid, [pairs[n]]) == Apply(RegisterTemplatePath(mid, pairs[n].0, pairs[n].1), []);
  }

  lemma MergeUpdate(a: map<string, string>, b: map<string, string>, k: string, v: string)
    ensures (a + b)[k := v] == a + b[k := v]
  {
  }

  /** A module's list registers its plan, and fails exactly when a path is not a string. */
  lemma {:induction false} GroupFollowsPlan(st: ResolverState, key: string, paths: seq<(string, Value)>)
    ensures RegisterGroup(st, key, paths)
            == Step(if GroupValid(paths) then Ok(()) else Err(UnexpectedValue), Apply(st, GroupPlan(key, paths)))
    decreases |paths|
  {
    if |paths| > 0 {
      GroupValidTail(paths);
      if paths[0].1.Str? {
        var pair := (GetFullTemplateName(key, paths[0].0), paths[0].1.s);
        var st' := RegisterTemplatePath(st, pair.0, pair.1);
        var rest := GroupPlan(key, paths[1..]);
        GroupFollowsPlan(st', key, paths[1..]);
        assert RegisterGroup(st, key, paths) == RegisterGroup(st', key, paths[1..]);
        assert GroupPlan(key, paths) == [pair] + rest;
        ApplyCons(st, pair, rest);
      }
    }
  }

  lemma ApplyCons(st: ResolverState, pair: (string, string), rest: seq<(string, string)>)
    ensures Apply(st, [pair] + rest) == Apply(RegisterTemplatePath(st, pair.0, pair.1), rest)
  {
    assert ([pair] + rest)[0] == pair && ([pair] + rest)[1..] == rest;
  }

  /**
   * The section registers exactly its plan, in order, and is refused
   * exactly when some value is invalid; what was registered before the
   * refused value stays registered.
   */
  lemma {:induction false} EntriesFollowPlan(st: ResolverState, entries: seq<(string, Spec)>)
    ensures RegisterEntries(st, entries)
            == Step(if Valid(entries) then Ok(()) else Err(UnexpectedValue), Apply(st, Plan(entries)))
    decreases |entries|
  {
    if |entries| > 0 {
      var (key, spec) := entries[0];
      assert ValidTail: Valid(entries) <==> (spec.Single? || (spec.Group? && GroupValid(spec.paths))) && Valid(entries[1..]) by {
        assert forall i :: 1 <= i < |entries| ==> entries[i] == entries[1..][i - 1];
      }
      match spec
      case Single(p) =>
        EntriesFollowPlan(RegisterTemplatePath(st, key, p), entries[1..]);
        assert Apply(st, [(key, p)] + Plan(entries[1..])) == Apply(RegisterTemplatePath(st, key, p), Plan(entries[1..]));
      case Group(paths) =>
        GroupFollowsPlan(st, key, paths);
        var g := RegisterGroup(st, key, paths);
        if GroupValid(paths) {
          EntriesFollowPlan(g.state, entries[1..]);
          ApplyAppend(st, GroupPlan(key, paths), Plan(entries[1..]));
        } else {
          assert GroupPlan(key, paths) + [] == GroupPlan(key, paths);
        }
      case Neither =>
    }
  }

  /**
   * What the listener leaves in the template table: the old table,
   * overridden by the last path the section gives each name it registers.
   */
  lemma ConfiguredTable(st: ResolverState, modules: seq<(string, string)>, entries: seq<(string, Spec)>)
    ensures var r := Invoke(st, modules, Some(entries));
            && r.state.templatesMap == st.templatesMap + LastWins(Plan(entries))
            && (r.result.Ok? <==> Valid(entries))
  {
    var withModules := RegisterModules(st, modules);
    EntriesFollowPlan(withModules, entries);
    ApplyIsMerge(withModules, Plan(entries));
  }

  /** A short name with a string path is registered as it is spelled. */
  lemma ShortNameEntry(st: ResolverState, name: string, path: string)
    ensures Invoke(st, [], Some([(name, Single(path))])) == Step(Ok(()), RegisterTemplatePath(st, name, path))
  {
    var entries := [(name, Single(path))];
    assert RegisterModules(st, []) == st;
    assert entries[1..] == [];
    assert RegisterEntries(st, entries) == RegisterEntries(RegisterTemplatePath(st, name, path), []);
  }

  /** A module's template is registered under its full name `module::template`. */
  lemma FullNameEntry(st: ResolverState, mod: string, template: string, path: string)
    ensures Invoke(st, [], Some([(mod, Group([(template, Str(path))]))]))
            == Step(Ok(()), RegisterTemplatePath(st, GetFullTemplateName(mod, template), path))
  {
    var paths := [(template, Str(path))];
    var entries := [(mod, Group(paths))];
    var st' := RegisterTemplatePath(st, GetFullTemplateName(mod, template), path);
    assert RegisterModules(st, []) == st;
    assert paths[1..] == [] && entries[1..] == [];
    assert RegisterGroup(st, mod, paths) == RegisterGroup(st', mod, []);
    assert RegisterEntries(st, entries) == RegisterEntries(st', []);
  }

  /** A value that is neither a string nor a list is refused, with the earlier registrations kept. */
  lemma InvalidEntryRefused(st: ResolverState, before: seq<(string, string)>, key: string)
    ensures var entries := seq(|before|, i requires 0 <= i < |before| => (before[i].0, Single(before[i].1)))
                           + [(key, Neither)];
            RegisterEntries(st, entries) == Step(Err(UnexpectedValue), Apply(st, before))
  {
    var entries := seq(|before|, i requires 0 <= i < |before| => (before[i].0, Single(before[i].1))) + [(key, Neither)];
    EntriesFollowPlan(st, entries);
    assert !Valid(entries) by {
      assert entries[|before|].1 == Neither;
    }
    SinglesPlan(before, key);
  }

  lemma {:induction false} SinglesPlan(before: seq<(string, string)>, key: string)
    ensures Plan(seq(|before|, i requires 0 <= i < |before| => (before[i].0, Single(before[i].1))) + [(key, Neither)])
            == before
    decreases |before|
  {
    var entries := seq(|before|, i requires 0 <= i < |before| => (before[i].0, Single(before[i].1))) + [(key, Neither)];
    if |before| == 0 {
      assert entries == [(key, Neither)];
    } else {
      SinglesPlan(before[1..], key);
      assert entries[1..] == seq(|before[1..]|, i requires 0 <= i < |before[1..]| => (before[1..][i].0, Single(before[1..][i].1)))
                             + [(key, Neither)];
      assert before == [before[0]] + before[1..];
    }
  }
}

=== FILE: events.dfy ===
/**
 * What the listeners of src/Listener/ read from and write to the system
 * event: the dispatch result, the controller that produced it, and the HTTP
 * response the finish stage carries.
 */
module Events {
  import opened Common
  import opened ViewModels

  /**
   * An HTTP response as far as the view layer looks at it: the line
   * `getHeaderLine('Content-Type')` returns (empty when the header is
   * absent), the body as a string, and the status, which nothing here changes.
   */
  datatype Response = Response(status: int, contentType: string, body: string)

  /**
   * The dispatch result: `false` (nothing to render), a view model, a
   * response, or any other value, described by what `new ViewModel($result)`
   * makes of it (`None` for `null`).
   */
  datatype DispatchResult =
    | NoResult
    | Model(model: ViewModel)
    | Reply(response: Response)
    | Plain(vars: Option<Variables>)

  /** The event's context: a controller object, known by its class name, or a value that is not an object. */
  datatype Context = Controller(className: string) | NotObject
}

=== FILE: inject_module_listener.dfy ===
/**
 * Module injection (src/Listener/InjectModuleListener.php): the module
 * namespace of the dispatched controller is looked up among the registered
 * modules and given to the layout and to the dispatch result, each only if
 * it has no module yet.
 */
module InjectModuleListener {
  import opened Common
  import opened Php
  import opened ViewModels
  import opened Views
  import opened Events

  /** A position of `cls` holding a namespace separator. */
  predicate IsSeparator(cls: string, j: int) {
    0 <= j < |cls| && cls[j] == '\\'
  }

  /**
   * The loop of `resolveModule` after it has cut the class name down to
   * `cls[..end]`: cut at the last remaining `\`, and stop at the first cut
   * that is a registered module. The result is the longest registered
   * namespace prefix of `cls[..end]`; none at all is a RuntimeException.
   */
  function ModuleBelow(modules: set<string>, cls: string, end: nat): (r: Result<string>)
    requires end <= |cls|
    ensures r.Err? ==> r.error == Runtime
    ensures r.Err? ==> forall j :: 0 <= j < end && IsSeparator(cls, j) ==> cls[..j] !in modules
    ensures r.Ok? ==> |r.value| < end && IsSeparator(cls, |r.value|) && r.value == cls[..|r.value|]
    ensures r.Ok? ==> r.value in modules
    ensures r.Ok? ==> forall j :: |r.value| < j < end && IsSeparator(cls, j) ==> cls[..j] !in modules
    decreases end
  {
    match LastIndexOf(cls[..end], '\\')
    case None => Err(Runtime)
    case Some(pos) =>
      var candidate := cls[..pos];
      if candidate in modules then Ok(candidate)
      else ModuleBelow(modules, cls, pos)
  }

  /** `resolveModule`: the search over the whole class name. */
  function ResolveModule(modules: set<string>, cls: string): (r: Result<string>)
    ensures r.Err? <==> forall j :: IsSeparator(cls, j) ==> cls[..j] !in modules
    ensures r.Err? ==> r.error == Runtime
    ensures r.Ok? ==> r.value in modules && IsSeparator(cls, |r.value|) && r.value == cls[..|r.value|]
    ensures r.Ok? ==> forall j :: |r.value| < j && IsSeparator(cls, j) ==> cls[..j] !in modules
  {
    ModuleBelow(modules, cls, |cls|)
  }

  /**
   * A registered namespace prefix is never missed: the search then
   * succeeds, with that prefix or a longer registered one.
   */
  lemma ResolveModuleIsLongestPrefix(modules: set<string>, cls: string, ns: string)
    requires |ns| < |cls| && cls[|ns|] == '\\' && cls[..|ns|] == ns && ns in modules
    ensures ResolveModule(modules, cls).Ok?
    ensures |ResolveModule(modules, cls).value| >= |ns|
  {
  }

  /** Nested namespaces: when both `A` and `A\B` are registered, a controller `A\B\C` belongs to `A\B`. */
  lemma InnermostModuleWins(a: string, b: string, c: string)
    requires '\\' !in b && '\\' !in c
    ensures ResolveModule({a, a + "\\" + b}, a + "\\" + b + "\\" + c) == Ok(a + "\\" + b)
  {
    var cls := a + "\\" + b + "\\" + c;
    var ab := a + "\\" + b;
    assert cls[..|ab|] == ab;
    var r := ResolveModule({a, ab}, cls);
    if r.Err? {
      assert IsSeparator(cls, |ab|);
    }
  }

  /**
   * `__invoke`: a context that is not an object is an
   * UnexpectedValueException and an unresolvable module a RuntimeException,
   * both before anything changes. Otherwise the layout (created if need be)
   * gets the module unless it has one, and so does a dispatched view model.
   */
  function Invoke(view: View, modules: set<string>, context: Context, result: DispatchResult)
    : (r: Result<(View, DispatchResult)>)
    ensures context.NotObject? ==> r == Err(UnexpectedValue)
    ensures context.Controller? ==> (r.Err? <==> ResolveModule(modules, context.className).Err?)
    ensures r.Err? ==> r.error in {UnexpectedValue, Runtime}
    ensures r.Ok? ==>
              var mod := ResolveModule(modules, context.className).value;
              var layout := GetLayout(view).0;
              var (view', result') := r.value;
              && view'.layout.Some?
              && view'.layout.value == (if Empty(layout.moduleName) then layout.(moduleName := Some(mod)) else layout)
              && (result.Model? && Empty(result.model.moduleName) ==>
                    result' == Model(result.model.(moduleName := Some(mod))))
              && (!(result.Model? && Empty(result.model.moduleName)) ==> result' == result)
  {
    match context
    case NotObject => Err(UnexpectedValue)
    case Controller(cls) =>
      match ResolveModule(modules, cls)
      case Err(e) => Err(e)
      case Ok(mod) =>
        var (layout, view1) := GetLayout(view);
        var layout' := if Empty(layout.moduleName) then SetModule(layout, Str(mod)) else layout;
        var result' := if result.Model? && Empty(result.model.moduleName)
                       then Model(SetModule(result.model, Str(mod)))
                       else result;
        Ok((SetLayout(view1, layout'), result'))
  }

  /**
   * Injection is idempotent: a second run on what the first left behind
   * changes neither the view nor the result.
   */
  lemma InjectIdempotent(view: View, modules: set<string>, context: Context, result: DispatchResult)
    requires Invoke(view, modules, context, result).Ok?
    ensures Invoke(Invoke(view, modules, context, result).value.0, modules, context,
                   Invoke(view, modules, context, result).value.1)
            == Invoke(view, modules, context, result)
  {
  }

  /** A module already set, on the layout or on the result, is never overwritten. */
  lemma ExistingModuleKept(view: View, modules: set<string>, context: Context, m: ViewModel)
    requires view.layout.Some? && !Empty(view.layout.value.moduleName)
    requires !Empty(m.moduleName)
    requires Invoke(view, modules, context, Model(m)).Ok?
    ensures Invoke(view, modules, context, Model(m)).value == (view, Model(m))
  {
  }
}

=== FILE: inject_template_listener.dfy ===
/**
 * Template injection (src/Listener/InjectTemplateListener.php): a view model
 * returned by a controller without a template gets one derived from the
 * controller's class name and the request's `action` attribute.
 */
module InjectTemplateListener {
  import opened Common
  import opened Php
  import opened ViewModels
  import opened Events

  /** The action a request without an `action` attribute stands for. */
  const DefaultAction: string := "index"

  /** `substr(cls, |ns| + 1)`: what follows the namespace and its separator, `''` past the end. */
  function SubNamespace(cls: string, ns: string): (r: string)
    ensures |ns| + 1 <= |cls| ==> r == cls[|ns| + 1..]
    ensures |ns| + 1 > |cls| ==> r == ""
  {
    if |ns| + 1 <= |cls| then cls[|ns| + 1..] else ""
  }

  /**
   * The directory part of the template: the sub-namespace with every
   * `Controller` removed, doubled backslashes collapsed, and backslashes
   * turned into `/`.
   */
  function TemplateDir(cls: string, ns: string): (r: string)
    ensures '\\' !in r
  {
    var sub := Replace(Replace(SubNamespace(cls, ns), "Controller", ""), "\\\\", "\\");
    ReplaceChar(sub, '\\', '/')
  }

  /**
   * `resolveTemplate`: the controller class must start with the module
   * namespace; the template is `dir/action`, dashed before inner capitals
   * and lower-cased.
   */
  function ResolveTemplate(cls: string, ns: string, action: string): (r: Result<string>)
    ensures r.Err? <==> !HasPrefix(cls, ns)
    ensures r.Err? ==> r.error == UnexpectedValue
    ensures r.Ok? ==> NoUpper(r.value)
  {
    PrefixTest(cls, ns);
    if IndexOf(cls, ns) != Some(0) then Err(UnexpectedValue)
    else Ok(ToLower(Kebab(TemplateDir(cls, ns) + "/" + action)))
  }

  lemma ToLowerAppend(a: string, b: string)
    ensures ToLower(a + b) == ToLower(a) + ToLower(b)
  {
    var l, r := ToLower(a + b), ToLower(a) + ToLower(b);
    assert |l| == |r|;
    forall i | 0 <= i < |l|
      ensures l[i] == r[i]
    {
      if i < |a| {
        assert r[i] == ToLower(a)[i];
      } else {
        assert r[i] == ToLower(b)[i - |a|];
      }
    }
  }

  /**
   * The action is dashed and lower-cased on its own: no dash is ever put
   * across the `/` that precedes it, so the template is the directory part
   * and the action, each normalised separately.
   */
  lemma ActionIsLastSegment(cls: string, ns: string, action: string)
    requires HasPrefix(cls, ns)
    ensures ResolveTemplate(cls, ns, action)
            == Ok(ToLower(Kebab(TemplateDir(cls, ns))) + "/" + ToLower(Kebab(action)))
  {
    var dir := TemplateDir(cls, ns);
    PrefixTest(cls, ns);
    KebabSplit(dir, '/', action);
    ToLowerAppend(Kebab(dir) + ['/'], Kebab(action));
    ToLowerAppend(Kebab(dir), ['/']);
    assert ToLower(['/']) == ['/'];
    assert ToLower(Kebab(dir + "/" + action))
        == ToLower(Kebab(dir)) + "/" + ToLower(Kebab(action));
  }

  /** An action without capitals appears verbatim after the last `/`. */
  lemma LowerCaseActionKept(cls: string, ns: string, action: string)
    requires HasPrefix(cls, ns) && NoUpper(action)
    ensures ResolveTemplate(cls, ns, action).Ok?
    ensures var t := ResolveTemplate(cls, ns, action).value;
            && |t| > |action|
            && t[|t| - |action| - 1..] == "/" + action
  {
    ActionIsLastSegment(cls, ns, action);
    KebabNoUpper(action);
    ToLowerNoUpper(action);
    var head := ToLower(Kebab(TemplateDir(cls, ns)));
    var t := ResolveTemplate(cls, ns, action).value;
    assert t == head + "/" + action;
    SuffixOf(head, action);
  }

  lemma ToLowerNoUpper(s: string)
    requires NoUpper(s)
    ensures ToLower(s) == s
  {
    assert forall i :: 0 <= i < |s| ==> ToLower(s)[i] == s[i];
  }

  lemma SuffixOf(head: string, action: string)
    ensures var t := head + "/" + action;
            t[|t| - |action| - 1..] == "/" + action
  {
    var t := head + "/" + action;
    assert |t| - |action| - 1 == |head|;
  }

  /** A resolved template always holds a `/`, so it is never empty in PHP's sense. */
  lemma ResolvedTemplateTruthy(cls: string, ns: string, action: string)
    requires HasPrefix(cls, ns)
    ensures Truthy(ResolveTemplate(cls, ns, action).value)
  {
    ActionIsLastSegment(cls, ns, action);
    var head := ToLower(Kebab(TemplateDir(cls, ns)));
    assert ResolveTemplate(cls, ns, action).value[|head|] == '/';
  }

  /**
   * `__invoke`: acts only on a view model without a template. It needs the
   * model's module (RuntimeException otherwise) and a controller object
   * (UnexpectedValueException otherwise); the request's `action` defaults
   * to `index`. Only the template is set; any other result is left alone.
   */
  function Invoke(result: DispatchResult, context: Context, action: Option<string>): (r: Result<DispatchResult>)
    ensures !(result.Model? && Empty(result.model.template)) ==> r == Ok(result)
    ensures result.Model? && Empty(result.model.template) && Empty(result.model.moduleName) ==> r == Err(Runtime)
    ensures result.Model? && Empty(result.model.template) && !Empty(result.model.moduleName) && context.NotObject? ==>
              r == Err(UnexpectedValue)
    ensures result.Model? && Empty(result.model.template) && !Empty(result.model.moduleName) && context.Controller? ==>
              (r.Ok? <==> HasPrefix(context.className, result.model.moduleName.value))
    ensures r.Err? ==> r.error in {Runtime, UnexpectedValue}
    ensures r.Ok? && result.Model? && Empty(result.model.template) ==>
              && context.Controller? && result.model.moduleName.Some?
              && var t := ResolveTemplate(context.className, result.model.moduleName.value,
                                          if action.Some? then action.value else DefaultAction);
                 t.Ok? && r.value == Model(result.model.(template := Some(t.value)))
  {
    match result
    case Model(vm) =>
      if !Empty(vm.template) then Ok(result)
      else if Empty(vm.moduleName) then Err(Runtime)
      else
        (match context
         case NotObject => Err(UnexpectedValue)
         case Controller(cls) =>
           var act := if action.Some? then action.value else DefaultAction;
           match ResolveTemplate(cls, vm.moduleName.value, act)
           case Err(e) => Err(e)
           case Ok(t) => Ok(Model(SetTemplate(vm, Str(t)))))
    case _ => Ok(result)
  }

  /**
   * Injection is idempotent: once a template is injected, running the
   * listener again, with any controller and action, changes nothing.
   */
  lemma InjectIdempotent(result: DispatchResult, context: Context, action: Option<string>,
                         context2: Context, action2: Option<string>)
    requires Invoke(result, context, action).Ok?
    ensures var r := Invoke(result, context, action).value;
            Invoke(r, context2, action2) == Ok(r)
  {
    if result.Model? && Empty(result.model.template) {
      var act := if action.Some? then action.value else DefaultAction;
      ResolvedTemplateTruthy(context.className, result.model.moduleName.value, act);
    }
  }

  /**
   * The listener's own test: in namespace `ns`, controller `ns\FakeController`
   * with action `foo` gets the template `fake/foo`.
   */
  lemma FakeControllerExample(ns: string)
    ensures ResolveTemplate(ns + "\\" + "Fake" + "Controller", ns, "foo") == Ok("fake/foo")
  {
    var cls := ns + "\\" + "Fake" + "Controller";
    assert HasPrefix(cls, ns);
    FakeControllerDir(ns);
    ActionIsLastSegment(cls, ns, "foo");
    FakeControllerCase();
  }

  lemma FakeControllerDir(ns: string)
    ensures TemplateDir(ns + "\\" + "Fake" + "Controller", ns) == "Fake"
  {
    var cls := ns + "\\" + "Fake" + "Controller";
    assert cls[|ns| + 1..] == "Fake" + "Controller";
    ReplaceControllerSuffix();
    ReplaceAbsent("Fake", "\\\\", "\\");
    assert ReplaceChar("Fake", '\\', '/') == "Fake";
  }

  lemma FakeControllerCase()
    ensures ToLower(Kebab("Fake")) + "/" + ToLower(Kebab("foo")) == "fake/foo"
  {
    KebabNoUpper("foo");
    ToLowerNoUpper("foo");
    KebabWord("Fake");
    assert "Fake" == "F" + "ake";
    ToLowerAppend("F", "ake");
    ToLowerNoUpper("ake");
    assert ToLower("F") == "f" by {
      assert ToLower("F")[0] == LowerChar('F') == 'f';
    }
    assert "f" + "ake" + "/" + "foo" == "fake/foo";
  }

  lemma ReplaceControllerSuffix()
    ensures Replace("Fake" + "Controller", "Controller", "") == "Fake"
  {
    ReplaceAtEnd("Fake", "Controller", "");
    assert "Fake" + "" == "Fake";
  }
}

=== FILE: model_listeners.dfy ===
/**
 * The two listeners that turn a dispatch result into part of the page:
 * src/Listener/CreateModelListener.php wraps a plain result into a view
 * model, and src/Listener/InjectModelListener.php appends a view model to
 * the layout.
 */
module ModelListeners {
  import opened Common
  import opened ViewModels
  import opened Views
  import opened Events

  /**
   * CreateModelListener `__invoke`: a result that is not `false`, not a view
   * model and not a response becomes `new ViewModel($result)`, which refuses
   * a value that is not variables. Everything else stays as it is.
   */
  function CreateModel(result: DispatchResult): (r: Result<DispatchResult>)
    ensures !result.Plain? ==> r == Ok(result)
    ensures result.Plain? ==> (r.Err? <==> result.vars == Some(Invalid))
    ensures r.Err? ==> r.error == InvalidArgument
    ensures result.Plain? && r.Ok? ==>
              r.value.Model? && r.value.model == Fresh.(variables := if result.vars.Some? then result.vars.value.entries else map[])
  {
    match result
    case Plain(vars) =>
      (match New(vars)
       case Ok(m) => Ok(Model(m))
       case Err(e) => Err(e))
    case _ => Ok(result)
  }

  /** A created model is a fresh model holding the result as its variables, and creating again changes nothing. */
  lemma CreateModelSettles(result: DispatchResult)
    requires CreateModel(result).Ok?
    ensures CreateModel(CreateModel(result).value) == CreateModel(result)
    ensures result.Plain? && result.vars.Some? ==>
              GetVariables(CreateModel(result).value.model) == result.vars.value.entries
              && GetTemplate(CreateModel(result).value.model).None?
              && Children(CreateModel(result).value.model) == []
  {
  }

  /**
   * InjectModelListener `__invoke`: a view model result is appended to the
   * layout's children (the layout being created if need be), keeping its own
   * group id; any other result leaves the view alone.
   */
  function InjectModel(view: View, result: DispatchResult): (r: View)
    ensures !result.Model? ==> r == view
    ensures result.Model? ==>
              var layout := GetLayout(view).0;
              && r.layout.Some?
              && r.layout.value == layout.(children := r.layout.value.children)
              && r.layout.value.children == layout.children + [result.model]
  {
    match result
    case Model(m) =>
      var (layout, view1) := GetLayout(view);
      SetLayout(view1, AddChild(layout, m))
    case _ => view
  }

  /**
   * Two dispatches in a row end up as the layout's last two children, in
   * dispatch order, each rendered into the slot its own group id names.
   */
  lemma InjectInOrder(view: View, a: ViewModel, b: ViewModel)
    ensures var v := InjectModel(InjectModel(view, Model(a)), Model(b));
            var n := |GetLayout(view).0.children|;
            && v.layout.Some?
            && |v.layout.value.children| == n + 2
            && v.layout.value.children[n] == a
            && v.layout.value.children[n + 1] == b
            && v.layout.value.children[..n] == GetLayout(view).0.children
  {
    var l1 := InjectModel(view, Model(a)).layout.value;
    assert l1.children == GetLayout(view).0.children + [a];
  }

  /** A result that is made into a model by the first listener is what the second appends. */
  lemma CreatedModelIsInjected(view: View, entries: map<string, Value>)
    ensures var created := CreateModel(Plain(Some(ArrayVars(entries))));
            && created.Ok?
            && var children := InjectModel(view, created.value).layout.value.children;
               children[|children| - 1] == Fresh.(variables := entries)
               && children[|children| - 1].groupId == "content"
  {
  }
}

=== FILE: php.dfy ===
/**
 * The handful of PHP string primitives the view layer is built from, over
 * `string` (a `seq<char>`), with the ASCII-only behaviour of the C locale.
 */
module Php {
  import opened Common

  /** PHP truthiness of a string; `empty($s)` is its negation. */
  predicate Truthy(s: string) {
    s != "" && s != "0"
  }

  /** `! $x` on a nullable string: `null`, `''` and `'0'` are all empty. */
  predicate Empty(s: Option<string>) {
    s.None? || !Truthy(s.value)
  }

  predicate IsUpper(c: char) { 'A' <= c <= 'Z' }
  predicate IsLower(c: char) { 'a' <= c <= 'z' }
  predicate IsLetter(c: char) { IsUpper(c) || IsLower(c) }

  predicate NoUpper(s: string) {
    forall i :: 0 <= i < |s| ==> !IsUpper(s[i])
  }

  function LowerChar(c: char): (r: char)
    ensures !IsUpper(r)
    ensures IsUpper(c) ==> IsLower(r)
    ensures !IsUpper(c) ==> r == c
  {
    if IsUpper(c) then (c as int + 32) as char else c
  }

  /** `strtolower` in the C locale. */
  function ToLower(s: string): (r: string)
    ensures |r| == |s|
    ensures forall i :: 0 <= i < |s| ==> r[i] == LowerChar(s[i])
    ensures NoUpper(r)
  {
    seq(|s|, i requires 0 <= i < |s| => LowerChar(s[i]))
  }

  /**
   * `preg_replace('/([a-zA-Z])(?=[A-Z])/', '$1-', s)`: a `-` is written after
   * every letter that is directly followed by an upper-case letter. The
   * look-ahead consumes nothing, so every such position is rewritten.
   */
  function Kebab(s: string): (r: string)
  {
    if |s| == 0 then ""
    else if |s| >= 2 && IsLetter(s[0]) && IsUpper(s[1]) then [s[0], '-'] + Kebab(s[1..])
    else [s[0]] + Kebab(s[1..])
  }

  /** `str_replace(a, b, s)` for a one-character search string. */
  function ReplaceChar(s: string, a: char, b: char): (r: string)
    ensures |r| == |s|
    ensures forall i :: 0 <= i < |s| ==> r[i] == (if s[i] == a then b else s[i])
  {
    seq(|s|, i requires 0 <= i < |s| => if s[i] == a then b else s[i])
  }

  /**
   * `str_replace(pat, rep, s)`: a single left-to-right pass that replaces
   * non-overlapping occurrences; an empty search string leaves `s` alone.
   */
  function Replace(s: string, pat: string, rep: string): string
    decreases |s|
  {
    if |pat| == 0 || |s| < |pat| then s
    else if s[..|pat|] == pat then rep + Replace(s[|pat|..], pat, rep)
    else [s[0]] + Replace(s[1..], pat, rep)
  }

  /** A search string whose first character never occurs is never found: nothing is replaced. */
  lemma {:induction false} ReplaceAbsent(s: string, pat: string, rep: string)
    requires |pat| > 0 && pat[0] !in s
    ensures Replace(s, pat, rep) == s
    decreases |s|
  {
    if |s| >= |pat| {
      assert s[..|pat|][0] == s[0];
      ReplaceAbsent(s[1..], pat, rep);
      assert [s[0]] + s[1..] == s;
    }
  }

  /** A search string that ends the subject, and starts nowhere before, is replaced once. */
  lemma {:induction false} ReplaceAtEnd(u: string, pat: string, rep: string)
    requires |pat| > 0 && pat[0] !in u
    ensures Replace(u + pat, pat, rep) == u + rep
    decreases |u|
  {
    var s := u + pat;
    if |u| == 0 {
      assert s == pat && s[|pat|..] == "";
    } else {
      assert s[..|pat|][0] == u[0];
      assert s[1..] == u[1..] + pat;
      ReplaceAtEnd(u[1..], pat, rep);
      assert [u[0]] + (u[1..] + rep) == u + rep;
    }
  }

  /** `ltrim(s, c)` for a one-character mask. */
  function LTrim(s: string, c: char): (r: string)
    ensures |r| <= |s| && r == s[|s| - |r|..]
    ensures |r| == 0 || r[0] != c
    ensures forall i :: 0 <= i < |s| - |r| ==> s[i] == c
    decreases |s|
  {
    if |s| > 0 && s[0] == c then LTrim(s[1..], c) else s
  }

  /** `rtrim(s, c)` for a one-character mask. */
  function RTrim(s: string, c: char): (r: string)
    ensures |r| <= |s| && r == s[..|r|]
    ensures |r| == 0 || r[|r| - 1] != c
    ensures forall i :: |r| <= i < |s| ==> s[i] == c
    decreases |s|
  {
    if |s| > 0 && s[|s| - 1] == c then RTrim(s[..|s| - 1], c) else s
  }

  /** `trim(s, c)` for a one-character mask. */
  function Trim(s: string, c: char): (r: string)
    ensures |r| == 0 || (r[0] != c && r[|r| - 1] != c)
  {
    RTrim(LTrim(s, c), c)
  }

  /** Trimming only removes characters. */
  lemma TrimChars(s: string, c: char, x: char)
    requires x in Trim(s, c)
    ensures x in s
  {
    var l := LTrim(s, c);
    var i :| 0 <= i < |Trim(s, c)| && Trim(s, c)[i] == x;
    assert Trim(s, c)[i] == l[i];
    assert l[i] == s[|s| - |l| + i];
  }

  /** Concatenation regrouped, for proofs that would otherwise search for it. */
  lemma Regroup<T>(a: seq<T>, b: seq<T>, c: seq<T>)
    ensures a + (b + c) == (a + b) + c
  {
  }

  predicate HasPrefix(s: string, p: string) {
    |p| <= |s| && s[..|p|] == p
  }

  predicate OccursAt(s: string, pat: string, i: nat) {
    i + |pat| <= |s| && s[i..i + |pat|] == pat
  }

  /** `strpos(s, pat)`: the first position of `pat` in `s`, `None` for PHP `false`. */
  function IndexOf(s: string, pat: string, from: nat := 0): (r: Option<nat>)
    requires from <= |s|
    ensures r.Some? ==> from <= r.value && OccursAt(s, pat, r.value)
    ensures r.Some? ==> forall j :: from <= j < r.value ==> !OccursAt(s, pat, j)
    ensures r.None? ==> forall j :: from <= j <= |s| ==> !OccursAt(s, pat, j)
    decreases |s| - from
  {
    if from + |pat| > |s| then None
    else if s[from..from + |pat|] == pat then Some(from)
    else IndexOf(s, pat, from + 1)
  }

  /** `0 === strpos(s, p)` is the prefix test. */
  lemma PrefixTest(s: string, p: string)
    ensures IndexOf(s, p) == Some(0) <==> HasPrefix(s, p)
  {
    if HasPrefix(s, p) {
      assert OccursAt(s, p, 0);
    } else {
      assert !OccursAt(s, p, 0);
    }
  }

  /** `strrpos(s, c)` for a one-character needle. */
  function LastIndexOf(s: string, c: char): (r: Option<nat>)
    ensures r.Some? ==> r.value < |s| && s[r.value] == c
    ensures r.Some? ==> forall j :: r.value < j < |s| ==> s[j] != c
    ensures r.None? ==> forall j :: 0 <= j < |s| ==> s[j] != c
    decreases |s|
  {
    if |s| == 0 then None
    else if s[|s| - 1] == c then Some(|s| - 1)
    else LastIndexOf(s[..|s| - 1], c)
  }

  // ---------------------------------------------------------------------
  // Facts about Kebab used by the resolver and the template listener.

  /** Kebab only inserts dashes. */
  lemma {:induction false} KebabChars(s: string, c: char)
    requires c in Kebab(s)
    ensures c in s || c == '-'
    decreases |s|
  {
    if |s| > 0 {
      if c !in s[..1] && c != '-' {
        KebabChars(s[1..], c);
      }
    }
  }

  /** Without an upper-case letter there is nothing to rewrite. */
  lemma {:induction false} KebabNoUpper(s: string)
    requires NoUpper(s)
    ensures Kebab(s) == s
    decreases |s|
  {
    if |s| > 0 {
      KebabNoUpper(s[1..]);
      assert [s[0]] + s[1..] == s;
    }
  }

  /** Kebab keeps the first and the last character. */
  lemma {:induction false} KebabEnds(s: string)
    ensures |Kebab(s)| >= |s|
    ensures |s| > 0 ==> Kebab(s)[0] == s[0] && Kebab(s)[|Kebab(s)| - 1] == s[|s| - 1]
    decreases |s|
  {
    if |s| > 0 {
      KebabEnds(s[1..]);
    }
  }

  /** The dash Kebab puts between `a` and `b` when they are joined: one if a letter meets a capital. */
  function Seam(a: string, b: string): (r: string)
    ensures r == "" || r == "-"
  {
    if |a| > 0 && |b| > 0 && IsLetter(a[|a| - 1]) && IsUpper(b[0]) then "-" else ""
  }

  /** One step of Kebab: the first character, the dash it may call for, and the rest. */
  lemma KebabUnfold(s: string)
    requires |s| > 0
    ensures Kebab(s) == [s[0]] + Seam([s[0]], s[1..]) + Kebab(s[1..])
  {
    var seam := Seam([s[0]], s[1..]);
    if |s| >= 2 && IsLetter(s[0]) && IsUpper(s[1]) {
      assert seam == "-";
      assert [s[0], '-'] == [s[0]] + seam;
    } else {
      assert seam == "";
      assert [s[0]] + seam == [s[0]];
    }
  }

  /** A capital followed by no other capital is left as it is. */
  lemma KebabWord(s: string)
    requires |s| > 0 && NoUpper(s[1..])
    ensures Kebab(s) == s
  {
    KebabUnfold(s);
    KebabNoUpper(s[1..]);
    if |s| > 1 {
      assert !IsUpper(s[1..][0]);
    }
    assert [s[0]] + s[1..] == s;
  }

  /**
   * Kebab of a concatenation: each side on its own, plus the one dash the
   * seam may call for.
   */
  lemma {:induction false} KebabAppend(a: string, b: string)
    ensures Kebab(a + b) == Kebab(a) + Seam(a, b) + Kebab(b)
    decreases |a|
  {
    if |a| == 0 {
      assert a + b == b;
    } else {
      var s := a + b;
      var t := a[1..];
      assert s[0] == a[0];
      assert s[1..] == t + b;
      KebabUnfold(s);
      KebabAppend(t, b);
      if |a| == 1 {
        assert t == [];
        assert Kebab(a) == [a[0]];
        assert Seam([a[0]], b) == Seam(a, b);
      } else {
        assert (t + b)[0] == t[0];
        assert Seam([a[0]], t + b) == Seam([a[0]], t);
        assert Seam(t, b) == Seam(a, b);
        KebabUnfold(a);
        Regroup([a[0]] + Seam([a[0]], t), Kebab(t) + Seam(a, b), Kebab(b));
        Regroup([a[0]] + Seam([a[0]], t), Kebab(t), Seam(a, b));
      }
    }
  }

  /** Kebab rewrites each side of a non-letter independently. */
  lemma KebabSplit(a: string, c: char, b: string)
    requires !IsLetter(c)
    ensures Kebab(a + [c] + b) == Kebab(a) + [c] + Kebab(b)
  {
    KebabAppend(a, [c] + b);
    KebabUnfold([c] + b);
    assert ([c] + b)[0] == c && ([c] + b)[1..] == b;
    assert Seam([c], b) == "";
    if |a| > 0 {
      assert Seam(a, [c] + b) == "";
    }
    assert a + [c] + b == a + ([c] + b);
    Regroup(Kebab(a), [c], Kebab(b));
  }
}

=== FILE: resolver.dfy ===
/**
 * The template resolver (src/Resolver.php): module-name normalisation, the
 * two registration tables, and `resolve`, which tries a module-qualified
 * lookup, then the short-name table, then the last successfully used module.
 *
 * The filesystem is an oracle: `fileExists` answers `file_exists` and `glob`
 * lists the matches of a pattern, of which the resolver takes the first.
 */
module TemplateResolver {
  import opened Common
  import opened Php

  /** PHP_DS, the directory separator; POSIX here. */
  const Ds: char := '/'

  /** Resolver::DEFAULT_PREFIX, the templates sub-directory of a module. */
  const DefaultPrefix: string := "view"

  /** The filesystem as seen by `file_exists` and `glob`. */
  datatype FileSystem = FileSystem(fileExists: string -> bool, glob: string -> seq<string>)

  /**
   * The resolver's fields: normalised module key to templates directory,
   * template name (short or `module::name`) to file path, and the module of
   * the last successful module-qualified resolution.
   */
  datatype ResolverState = ResolverState(
    modulesMap: map<string, string>,
    templatesMap: map<string, string>,
    lastModule: Option<string>)

  /** A freshly constructed resolver. */
  const Fresh := ResolverState(map[], map[], None)

  // ---------------------------------------------------------------------
  // Normalisation

  /**
   * `normalizeModule`: `\` becomes `/`, outer `/` are trimmed, a `-` goes
   * after every letter followed by an upper-case letter, and the result is
   * lower-cased.
   */
  function NormalizeModule(mod: string): (r: string)
    ensures NoUpper(r)
    ensures '\\' !in r
    ensures |r| == 0 || (r[0] != '/' && r[|r| - 1] != '/')
  {
    var slashed := ReplaceChar(mod, '\\', '/');
    var trimmed := Trim(slashed, '/');
    var dashed := Kebab(trimmed);
    NormalizeStages(slashed);
    ToLower(dashed)
  }

  /** The facts each stage of the normalisation contributes. */
  lemma NormalizeStages(slashed: string)
    requires '\\' !in slashed
    ensures var dashed := Kebab(Trim(slashed, '/'));
            '\\' !in dashed && (|dashed| == 0 || (dashed[0] != '/' && dashed[|dashed| - 1] != '/'))
  {
    var trimmed := Trim(slashed, '/');
    if '\\' in trimmed {
      TrimChars(slashed, '/', '\\');
    }
    if '\\' in Kebab(trimmed) {
      KebabChars(trimmed, '\\');
    }
    KebabEnds(trimmed);
  }

  /** Characters that are neither letters, `/` nor `-` are never introduced. */
  lemma NormalizeIntroducesNothing(mod: string, c: char)
    requires c !in mod && c != '/' && c != '-' && !IsLetter(c)
    ensures c !in NormalizeModule(mod)
  {
    var slashed := ReplaceChar(mod, '\\', '/');
    var trimmed := Trim(slashed, '/');
    assert c !in slashed;
    if c in trimmed {
      TrimChars(slashed, '/', c);
    }
    if c in Kebab(trimmed) {
      KebabChars(trimmed, c);
    }
  }

  /** Normalising a normalised key changes nothing. */
  lemma NormalizeIdempotent(mod: string)
    ensures NormalizeModule(NormalizeModule(mod)) == NormalizeModule(mod)
  {
    var r := NormalizeModule(mod);
    assert ReplaceChar(r, '\\', '/') == r;
    assert LTrim(r, '/') == r;
    assert RTrim(r, '/') == r;
    assert Trim(r, '/') == r;
    KebabNoUpper(r);
    assert ToLower(r) == r;
  }

  /** A normalisation whose slashed form has no outer `/` is kebab-casing and lower-casing. */
  lemma NormalizeByStages(raw: string, slashed: string, dashed: string, key: string)
    requires ReplaceChar(raw, '\\', '/') == slashed
    requires |slashed| > 0 && slashed[0] != '/' && slashed[|slashed| - 1] != '/'
    requires Kebab(slashed) == dashed
    requires ToLower(dashed) == key
    ensures NormalizeModule(raw) == key
  {
    assert LTrim(slashed, '/') == slashed;
    assert RTrim(slashed, '/') == slashed;
  }

  /** Every entry of the memo table holds the normalisation of its key. */
  ghost predicate MemoValid(memo: map<string, string>) {
    forall k :: k in memo ==> memo[k] == NormalizeModule(k)
  }

  /**
   * `normalizeModule` with its static memo table made explicit: a hit is
   * returned as stored, a miss is computed and recorded.
   */
  function NormalizeModuleMemo(memo: map<string, string>, mod: string): (r: (string, map<string, string>))
    requires MemoValid(memo)
    ensures r.0 == NormalizeModule(mod)
    ensures MemoValid(r.1) && mod in r.1
    ensures forall k :: k in memo ==> k in r.1 && r.1[k] == memo[k]
    ensures mod in memo ==> r.1 == memo
  {
    if mod in memo then (memo[mod], memo)
    else
      var n := NormalizeModule(mod);
      (n, memo[mod := n])
  }

  /** `normalizePath`: both slash kinds become PHP_DS and trailing separators go. */
  function NormalizePath(path: string): (r: string)
    ensures '\\' !in r
    ensures |r| == 0 || r[|r| - 1] != Ds
    ensures |r| <= |path|
    ensures forall i :: 0 <= i < |r| ==> r[i] == (if path[i] == '\\' then Ds else path[i])
    ensures forall i :: |r| <= i < |path| ==> path[i] == '\\' || path[i] == Ds
  {
    var unified := ReplaceChar(ReplaceChar(path, '\\', Ds), '/', Ds);
    var r := RTrim(unified, Ds);
    assert forall i :: 0 <= i < |r| ==> r[i] == unified[i];
    r
  }

  /** `getFullTemplateName`: the normalised module, `::`, the name without leading `/`. */
  function GetFullTemplateName(mod: string, shortName: string): (r: string)
    ensures var key := NormalizeModule(mod);
            && |r| >= |key| + 2 && r[..|key|] == key && r[|key|..|key| + 2] == "::"
            && NoUpper(r[..|key|]) && '\\' !in r[..|key|]
    ensures var name := r[|NormalizeModule(mod)| + 2..];
            && |name| <= |shortName| && name == shortName[|shortName| - |name|..]
            && (|name| == 0 || name[0] != '/')
  {
    NormalizeModule(mod) + "::" + LTrim(shortName, '/')
  }

  /** A full template name splits back, at its first `::`, into its two halves. */
  lemma FullTemplateNameSplits(mod: string, shortName: string)
    requires ':' !in mod
    ensures var full := GetFullTemplateName(mod, shortName);
            var key := NormalizeModule(mod);
            && IndexOf(full, "::") == Some(|key|)
            && full[..|key|] == key
            && full[|key| + 2..] == LTrim(shortName, '/')
  {
    NormalizeIntroducesNothing(mod, ':');
    SplitAtSeparator(NormalizeModule(mod), LTrim(shortName, '/'));
  }

  /** `key::rest` with no `:` in `key` splits back at its first `::`. */
  lemma SplitAtSeparator(key: string, rest: string)
    requires ':' !in key
    ensures var full := key + "::" + rest;
            && IndexOf(full, "::") == Some(|key|)
            && full[..|key|] == key
            && full[|key| + 2..] == rest
  {
    var full := key + "::" + rest;
    assert full[..|key|] == key;
    assert full[|key| + 2..] == rest;
    assert OccursAt(full, "::", |key|);
    FirstOccurrence(full, "::", |key|);
  }

  /** Nothing before a `::`-free prefix can start a `::`. */
  lemma FirstOccurrence(full: string, pat: string, k: nat)
    requires pat == "::" && OccursAt(full, pat, k)
    requires forall j :: 0 <= j < k ==> full[j] != ':'
    ensures IndexOf(full, pat) == Some(k)
  {
    forall j | 0 <= j < k
      ensures !OccursAt(full, pat, j)
    {
      if j + 2 <= |full| {
        assert full[j..j + 2][0] != pat[0];
      }
    }

  }

  // ---------------------------------------------------------------------
  // Registration

  /** The directory `registerModulePath` stores for `path`. */
  function ModuleDir(path: string, addPrefix: bool): string
  {
    NormalizePath(path) + [Ds] + (if addPrefix then DefaultPrefix + [Ds] else "")
  }

  /** `registerModulePath`: stores the directory under the normalised module key. */
  function RegisterModulePath(st: ResolverState, moduleName: string, path: string, addPrefix: bool := true): (r: ResolverState)
    ensures NormalizeModule(moduleName) in r.modulesMap
    ensures r.modulesMap[NormalizeModule(moduleName)] == ModuleDir(path, addPrefix)
    ensures forall k :: k in st.modulesMap && k != NormalizeModule(moduleName) ==> k in r.modulesMap && r.modulesMap[k] == st.modulesMap[k]
    ensures r.modulesMap.Keys == st.modulesMap.Keys + {NormalizeModule(moduleName)}
    ensures r.templatesMap == st.templatesMap && r.lastModule == st.lastModule
  {
    st.(modulesMap := st.modulesMap[NormalizeModule(moduleName) := ModuleDir(path, addPrefix)])
  }

  /**
   * A stored directory is the path with its trailing separators replaced by
   * exactly one, followed by `view/` when the prefix is asked for.
   */
  lemma ModuleDirShape(path: string, addPrefix: bool)
    ensures var d := ModuleDir(path, addPrefix);
            && '\\' !in d
            && d[|d| - 1] == Ds
            && (!addPrefix ==> |d| < 2 || d[|d| - 2] != Ds)
            && (addPrefix ==> |d| >= 6 && d[|d| - 6..] == "/view/")
    ensures var d := ModuleDir(path, addPrefix);
            var n := NormalizePath(path);
            && |d| > |n| && d[..|n|] == n
            && d[|n|..] == (if addPrefix then "/view/" else "/")
  {
    var d := ModuleDir(path, addPrefix);
    var n := NormalizePath(path);
    if !addPrefix && |d| >= 2 {
      assert d[|d| - 2] == n[|n| - 1];
    }
    if addPrefix {
      assert d[|d| - 6..] == [Ds] + DefaultPrefix + [Ds];
    }
  }

  function GetModulesMap(st: ResolverState): map<string, string> {
    st.modulesMap
  }

  /** `registerTemplatesMap`: a merge in which the new entries win. */
  function RegisterTemplatesMap(st: ResolverState, entries: map<string, string>): (r: ResolverState)
    ensures r.templatesMap.Keys == st.templatesMap.Keys + entries.Keys
    ensures forall k :: k in entries ==> r.templatesMap[k] == entries[k]
    ensures forall k :: k in st.templatesMap && k !in entries ==> r.templatesMap[k] == st.templatesMap[k]
    ensures r.modulesMap == st.modulesMap && r.lastModule == st.lastModule
  {
    st.(templatesMap := st.templatesMap + entries)
  }

  /** `registerTemplatePath`: one entry, keyed exactly as given. */
  function RegisterTemplatePath(st: ResolverState, name: string, path: string): (r: ResolverState)
    ensures HasTemplate(r, name) && GetTemplatesMap(r)[name] == path
    ensures forall k :: k != name ==> (HasTemplate(r, k) <==> HasTemplate(st, k))
    ensures forall k :: k != name && k in st.templatesMap ==> k in r.templatesMap && r.templatesMap[k] == st.templatesMap[k]
    ensures r.modulesMap == st.modulesMap && r.lastModule == st.lastModule
  {
    st.(templatesMap := st.templatesMap[name := path])
  }

  function GetTemplatesMap(st: ResolverState): map<string, string> {
    st.templatesMap
  }

  /** `hasTemplate`; the model's table holds strings only, so `isset` is membership. */
  predicate HasTemplate(st: ResolverState, name: string) {
    name in st.templatesMap
  }

  /** What was registered on a fresh resolver is exactly what is read back. */
  lemma TemplatesMapRoundTrip(entries: map<string, string>, name: string)
    ensures GetTemplatesMap(RegisterTemplatesMap(Fresh, entries)) == entries
    ensures HasTemplate(RegisterTemplatesMap(Fresh, entries), name) <==> name in entries
  {
  }

  // ---------------------------------------------------------------------
  // Resolution

  /**
   * A registered path as `resolve` returns it: normalised, and required to
   * exist; a missing file is a RuntimeException, not "not found".
   */
  function CheckRegistered(fs: FileSystem, path: string): (r: Result<string>)
    ensures r.Ok? <==> fs.fileExists(NormalizePath(path))
    ensures r.Ok? ==> r.value == NormalizePath(path)
    ensures r.Err? ==> r.error == Runtime
  {
    var file := NormalizePath(path);
    if fs.fileExists(file) then Ok(file) else Err(Runtime)
  }

  /** The glob pattern `findFile` hands to the filesystem. */
  function GlobPattern(dir: string, name: string): string {
    dir + ReplaceChar(name, '/', Ds) + ".*"
  }

  /**
   * `findFile`: the first glob match under the module's registered
   * directory, cached under `module::name`; `None` stands for `false`.
   */
  function FindFile(st: ResolverState, fs: FileSystem, mod: string, name: string): (r: (Option<string>, ResolverState))
    ensures mod !in st.modulesMap ==> r == (None, st)
    ensures r.0.None? ==> r.1 == st
    ensures r.0.Some? ==> r.1 == st.(templatesMap := st.templatesMap[mod + "::" + name := r.0.value])
    ensures r.0.Some? ==> mod in st.modulesMap && r.0.value in fs.glob(GlobPattern(st.modulesMap[mod], name))
  {
    if mod !in st.modulesMap then (None, st)
    else
      var found := fs.glob(GlobPattern(st.modulesMap[mod], name));
      if |found| == 0 then (None, st)
      else (Some(found[0]), st.(templatesMap := st.templatesMap[mod + "::" + name := found[0]]))
  }

  /**
   * `resolveModule`: the table entry `module::name` if there is one (which
   * must exist on disk), otherwise directory discovery.
   */
  function ResolveModule(st: ResolverState, fs: FileSystem, name: string, mod: string): (r: Step<Option<string>, ResolverState>)
    ensures mod + "::" + name in st.templatesMap ==>
              r.state == st && r.result == (match CheckRegistered(fs, st.templatesMap[mod + "::" + name])
                                             case Ok(f) => Ok(Some(f))
                                             case Err(e) => Err(e))
    ensures mod + "::" + name !in st.templatesMap ==>
              r.result == Ok(FindFile(st, fs, mod, name).0) && r.state == FindFile(st, fs, mod, name).1
  {
    var full := mod + "::" + name;
    if full in st.templatesMap then
      match CheckRegistered(fs, st.templatesMap[full])
      case Ok(f) => Step(Ok(Some(f)), st)
      case Err(e) => Step(Err(e), st)
    else
      var (found, st') := FindFile(st, fs, mod, name);
      Step(Ok(found), st')
  }

  /**
   * The module and the short name `resolve` works with: a module argument
   * whose normalised key is truthy wins over an embedded `x::` prefix, which
   * is cut off in any case; otherwise an embedded prefix is used as it
   * stands (even after a truthy argument such as `/` normalised to `''`),
   * and without one the module stays falsy; leading `/` are dropped from
   * the name.
   */
  function Target(template: string, mod: Option<string>): (r: (string, string))
    ensures mod.Some? && Truthy(mod.value) && Truthy(NormalizeModule(mod.value)) ==>
              r.0 == NormalizeModule(mod.value)
    ensures !(mod.Some? && Truthy(mod.value) && Truthy(NormalizeModule(mod.value)))
              && IndexOf(template, "::").Some? ==>
              r.0 == template[..IndexOf(template, "::").value]
    ensures !(mod.Some? && Truthy(mod.value) && Truthy(NormalizeModule(mod.value)))
              && IndexOf(template, "::").None? ==>
              !Truthy(r.0)
    ensures IndexOf(template, "::").Some? ==>
              r.1 == LTrim(template[IndexOf(template, "::").value + 2..], '/')
    ensures IndexOf(template, "::").None? ==> r.1 == LTrim(template, '/')
  {
    var m := match mod
             case None => ""
             case Some(v) => if Truthy(v) then NormalizeModule(v) else v;
    match IndexOf(template, "::")
    case None => (m, LTrim(template, '/'))
    case Some(pos) =>
      var m' := if Truthy(m) then m else template[..pos];
      (m', LTrim(template[pos + 2..], '/'))
  }

  /** A returned file counts as found only when it is truthy (`if (! $file)`). */
  predicate Found(file: Option<string>) {
    file.Some? && Truthy(file.value)
  }

  /**
   * `resolve(template, module)`: the module branch when a module is known,
   * otherwise the short-name table, otherwise the last used module.
   */
  function Resolve(st: ResolverState, fs: FileSystem, template: string, mod: Option<string> := None): (r: Step<string, ResolverState>)
    ensures r.state.modulesMap == st.modulesMap
    ensures forall k :: k in st.templatesMap ==> k in r.state.templatesMap && r.state.templatesMap[k] == st.templatesMap[k]
    ensures r.state.templatesMap.Keys - st.templatesMap.Keys <= {Target(template, mod).0 + "::" + Target(template, mod).1}
              + (if st.lastModule.Some? then {st.lastModule.value + "::" + Target(template, mod).1} else {})
    ensures r.state.lastModule != st.lastModule ==>
              r.result.Ok? && Truthy(Target(template, mod).0) && r.state.lastModule == Some(Target(template, mod).0)
    ensures r.result.Err? ==> r.result.error in {TemplateNotFound, Runtime}
  {
    var (m, name) := Target(template, mod);
    ResolveIn(st, fs, m, name)
  }

  /** The part of `resolve` after the module and the short name are settled. */
  function ResolveIn(st: ResolverState, fs: FileSystem, m: string, name: string): (r: Step<string, ResolverState>)
    ensures r.state.modulesMap == st.modulesMap
    ensures forall k :: k in st.templatesMap ==> k in r.state.templatesMap && r.state.templatesMap[k] == st.templatesMap[k]
    ensures r.state.templatesMap.Keys - st.templatesMap.Keys <= {m + "::" + name}
              + (if st.lastModule.Some? then {st.lastModule.value + "::" + name} else {})
    ensures r.state.lastModule != st.lastModule ==> r.result.Ok? && Truthy(m) && r.state.lastModule == Some(m)
    ensures r.result.Err? ==> r.result.error in {TemplateNotFound, Runtime}
  {
    if Truthy(m) then
      var s := ResolveModule(st, fs, name, m);
      match s.result
      case Err(e) => Step(Err(e), s.state)
      case Ok(file) =>
        if Found(file) then Step(Ok(file.value), s.state.(lastModule := Some(m)))
        else Step(Err(TemplateNotFound), s.state)
    else if name in st.templatesMap then
      Step(CheckRegistered(fs, st.templatesMap[name]), st)
    else if st.lastModule.Some? && Truthy(st.lastModule.value) then
      var s := ResolveModule(st, fs, name, st.lastModule.value);
      match s.result
      case Err(e) => Step(Err(e), s.state)
      case Ok(file) =>
        if Found(file) then Step(Ok(file.value), s.state)
        else Step(Err(TemplateNotFound), s.state)
    else
      Step(Err(TemplateNotFound), st)
  }
}

=== FILE: resolver_examples.dfy ===
/**
 * Worked values from the resolver's test data, derived stage by stage from
 * the general facts about each string primitive.
 */
module ResolverExamples {
  import opened Common
  import opened Php
  import opened TemplateResolver

  /**
   * Names from the resolver's test data. The module names are written as
   * concatenations of their words, which is the same string.
   */
  lemma FullTemplateNameExample1()
    ensures GetFullTemplateName("Foo" + "Bar" + "Baz" + "\\" + "Bat" + "Ban", "/foo/index") == "foo-bar-baz/bat-ban::foo/index"
  {
    Replace1();
    Kebab1();
    Lower1();
    FullNameExample("Foo" + "Bar" + "Baz" + "\\" + "Bat" + "Ban", ("Foo" + "Bar" + "Baz") + ['/'] + ("Bat" + "Ban"),
                    "Foo-Bar-Baz" + ['/'] + "Bat-Ban", "foo-bar-baz/bat-ban", "/foo/index");
  }

  lemma FullTemplateNameExample2()
    ensures GetFullTemplateName("Com" + "C" + "C" + "Cor" + "Cot", "/com/index") == "com-c-c-cor-cot::com/index"
  {
    Replace2();
    Kebab2();
    Lower2();
    FullNameExample("Com" + "C" + "C" + "Cor" + "Cot", "Com" + "C" + "C" + "Cor" + "Cot", "Com-C-C-Cor-Cot", "com-c-c-cor-cot", "/com/index");
  }

  lemma Replace1()
    ensures ReplaceChar("Foo" + "Bar" + "Baz" + "\\" + "Bat" + "Ban", '\\', '/') == ("Foo" + "Bar" + "Baz") + ['/'] + ("Bat" + "Ban")
  {}

  lemma Kebab1()
    ensures Kebab(("Foo" + "Bar" + "Baz") + ['/'] + ("Bat" + "Ban")) == "Foo-Bar-Baz" + ['/'] + "Bat-Ban"
  {
    KebabSplit("Foo" + "Bar" + "Baz", '/', "Bat" + "Ban");
    Words3("Foo", "Bar", "Baz");
    Words2("Bat", "Ban");
    assert "Foo" + "-" + "Bar" + "-" + "Baz" == "Foo-Bar-Baz";
    assert "Bat" + "-" + "Ban" == "Bat-Ban";
  }

  /** Two capitalised words in a row: Kebab puts one dash between them. */
  lemma Words2(u: string, v: string)
    requires |u| > 0 && NoUpper(u[1..]) && IsLetter(u[|u| - 1])
    requires |v| > 0 && NoUpper(v[1..]) && IsUpper(v[0])
    ensures Kebab(u + v) == u + "-" + v
  {
    KebabAppend(u, v);
    KebabWord(u);
    KebabWord(v);
    assert Seam(u, v) == "-";
  }

  lemma Words3(u: string, v: string, w: string)
    requires |u| > 0 && NoUpper(u[1..]) && IsLetter(u[|u| - 1])
    requires |v| > 0 && NoUpper(v[1..]) && IsUpper(v[0]) && IsLetter(v[|v| - 1])
    requires |w| > 0 && NoUpper(w[1..]) && IsUpper(w[0])
    ensures Kebab(u + v + w) == u + "-" + v + "-" + w
  {
    Words2(u, v);
    KebabAppend(u + v, w);
    KebabWord(w);
    assert (u + v)[|u + v| - 1] == v[|v| - 1];
    assert Seam(u + v, w) == "-";
  }

  lemma Lower1() ensures ToLower("Foo-Bar-Baz" + ['/'] + "Bat-Ban") == "foo-bar-baz/bat-ban" {}

  lemma Replace2()
    ensures ReplaceChar("Com" + "C" + "C" + "Cor" + "Cot", '\\', '/') == "Com" + "C" + "C" + "Cor" + "Cot"
  {}

  lemma Kebab2() ensures Kebab("Com" + "C" + "C" + "Cor" + "Cot") == "Com-C-C-Cor-Cot" {
    var u, v := "Com" + "C" + "C", "Cor" + "Cot";
    assert "Com" + "C" + "C" + "Cor" + "Cot" == u + v;
    Words3("Com", "C", "C");
    Words2("Cor", "Cot");
    KebabAppend(u, v);
    assert Seam(u, v) == "-";
    assert Kebab(u) + "-" + Kebab(v) == "Com-C-C-Cor-Cot";
  }

  lemma Lower2() ensures ToLower("Com-C-C-Cor-Cot") == "com-c-c-cor-cot" {}

  lemma FullTemplateNameExample3()
    ensures GetFullTemplateName("EsUser", "/foo/index") == "es-user::foo/index"
  {
    Replace3();
    Kebab3();
    Lower3();
    assert "/foo/index"[1..] == "foo/index";
    FullNameExample("EsUser", "EsUser", "Es-User", "es-user", "/foo/index");
  }

  lemma Replace3() ensures ReplaceChar("EsUser", '\\', '/') == "EsUser" {}
  lemma Lower3() ensures ToLower("Es-User") == "es-user" {}
  lemma Kebab3() ensures Kebab("EsUser") == "Es-User" {
    assert "EsUser" == "Es" + "User";
    Words2("Es", "User");
  }

  /** Nested namespaces become nested directories: the separators stop every dash. */
  lemma FullTemplateNameExample4()
    ensures GetFullTemplateName("Foo" + "\\" + "Bar" + "\\" + "Baz", "/baz/index") == "foo/bar/baz::baz/index"
  {
    var slashed := "Foo" + ['/'] + ("Bar" + ['/'] + "Baz");
    Replace4();
    Kebab4();
    Lower4();
    FullNameExample("Foo" + "\\" + "Bar" + "\\" + "Baz", slashed, slashed, "foo/bar/baz", "/baz/index");
  }

  lemma Replace4()
    ensures ReplaceChar("Foo" + "\\" + "Bar" + "\\" + "Baz", '\\', '/') == "Foo" + ['/'] + ("Bar" + ['/'] + "Baz")
  {}

  lemma Lower4() ensures ToLower("Foo" + ['/'] + ("Bar" + ['/'] + "Baz")) == "foo/bar/baz" {}

  lemma Kebab4()
    ensures Kebab("Foo" + ['/'] + ("Bar" + ['/'] + "Baz")) == "Foo" + ['/'] + ("Bar" + ['/'] + "Baz")
  {
    KebabSplit("Bar", '/', "Baz");
    KebabWord("Bar");
    KebabWord("Baz");
    KebabSplit("Foo", '/', "Bar" + ['/'] + "Baz");
    KebabWord("Foo");
  }

  /**
   * A module argument can be truthy and still normalise to `''`: `/` is
   * trimmed away, and the embedded prefix is then taken instead.
   */
  lemma SlashModuleTakesPrefix()
    ensures Truthy("/") && NormalizeModule("/") == ""
    ensures Target("x::t", Some("/")) == ("x", "t")
  {
    assert ReplaceChar("/", '\\', '/') == "/";
    SplitAtSeparator("x", "t");
    assert "x" + "::" + "t" == "x::t";
  }

  /** One worked full name: the module key, `::`, and the name after its leading `/`. */
  lemma FullNameExample(raw: string, slashed: string, dashed: string, key: string, shortName: string)
    requires ReplaceChar(raw, '\\', '/') == slashed
    requires |slashed| > 0 && slashed[0] != '/' && slashed[|slashed| - 1] != '/'
    requires Kebab(slashed) == dashed
    requires ToLower(dashed) == key
    requires |shortName| > 1 && shortName[0] == '/' && shortName[1] != '/'
    ensures GetFullTemplateName(raw, shortName) == key + "::" + shortName[1..]
  {
    NormalizeByStages(raw, slashed, dashed, key);
    assert LTrim(shortName[1..], '/') == shortName[1..];
  }

  lemma RegisterModulePathExamples()
    ensures RegisterModulePath(Fresh, "Foo", "/foo", true).modulesMap == map["foo" := "/foo/view/"]
    ensures RegisterModulePath(Fresh, "Foo", "/foo", false).modulesMap == map["foo" := "/foo/"]
  {
    assert ReplaceChar("Foo", '\\', '/') == "Foo";
    assert Kebab("Foo") == "Foo";
    assert ToLower("Foo") == "foo";
    NormalizeByStages("Foo", "Foo", "Foo", "foo");
    assert ReplaceChar(ReplaceChar("/foo", '\\', Ds), '/', Ds) == "/foo";
    assert NormalizePath("/foo") == "/foo";
    assert ModuleDir("/foo", true) == "/foo/view/";
    assert ModuleDir("/foo", false) == "/foo/";
  }
}

=== FILE: resolver_properties.dfy ===
/**
 * What `resolve` promises its callers, branch by branch: which table it
 * consults, which exception a failure raises, when `lastModule` moves, and
 * how a glob hit is remembered.
 */
module ResolverProperties {
  import opened Common
  import opened Php
  import opened TemplateResolver

  /**
   * The short-name table: a hit is returned normalised when the file exists
   * and is a RuntimeException when it does not; the resolver is unchanged,
   * `lastModule` included.
   */
  lemma ShortNameHit(st: ResolverState, fs: FileSystem, template: string, mod: Option<string>)
    requires !Truthy(Target(template, mod).0)
    requires Target(template, mod).1 in st.templatesMap
    ensures var file := NormalizePath(st.templatesMap[Target(template, mod).1]);
            var r := Resolve(st, fs, template, mod);
            && r.state == st
            && (fs.fileExists(file) ==> r.result == Ok(file))
            && (!fs.fileExists(file) ==> r.result == Err(Runtime))
  {
  }

  /**
   * The module branch with a `module::name` table entry: the same two
   * outcomes as the short table, except that a falsy file name is "not
   * found"; only a success records the module.
   */
  lemma ModuleTableHit(st: ResolverState, fs: FileSystem, template: string, mod: Option<string>)
    requires Truthy(Target(template, mod).0)
    requires Target(template, mod).0 + "::" + Target(template, mod).1 in st.templatesMap
    ensures var (m, name) := Target(template, mod);
            var file := NormalizePath(st.templatesMap[m + "::" + name]);
            var r := Resolve(st, fs, template, mod);
            && r.state.templatesMap == st.templatesMap
            && (fs.fileExists(file) && Truthy(file) ==> r.result == Ok(file) && r.state == st.(lastModule := Some(m)))
            && (fs.fileExists(file) && !Truthy(file) ==> r.result == Err(TemplateNotFound) && r.state == st)
            && (!fs.fileExists(file) ==> r.result == Err(Runtime) && r.state == st)
  {
    var (m, name) := Target(template, mod);
    var file := NormalizePath(st.templatesMap[m + "::" + name]);
    assert Resolve(st, fs, template, mod) == ResolveIn(st, fs, m, name);
    var s := ResolveModule(st, fs, name, m);
    assert s.state == st;
    if fs.fileExists(file) {
      assert s.result == Ok(Some(file));
    } else {
      assert s.result == Err(Runtime);
    }
  }

  /**
   * The module branch never falls back: when neither the table nor the
   * module's directory has the template, the result is "not found", even if
   * the short-name table or the last module would have had it.
   */
  lemma ModuleBranchNoFallback(st: ResolverState, fs: FileSystem, template: string, mod: Option<string>)
    requires Truthy(Target(template, mod).0)
    requires Target(template, mod).0 + "::" + Target(template, mod).1 !in st.templatesMap
    requires !Found(FindFile(st, fs, Target(template, mod).0, Target(template, mod).1).0)
    ensures Resolve(st, fs, template, mod).result == Err(TemplateNotFound)
    ensures Resolve(st, fs, template, mod).state.lastModule == st.lastModule
  {
  }

  /** Discovery needs a registered root: an unknown module is "not found", with nothing cached. */
  lemma UnregisteredModuleNotFound(st: ResolverState, fs: FileSystem, template: string, mod: Option<string>)
    requires Truthy(Target(template, mod).0)
    requires Target(template, mod).0 + "::" + Target(template, mod).1 !in st.templatesMap
    requires Target(template, mod).0 !in st.modulesMap
    ensures Resolve(st, fs, template, mod) == Step(Err(TemplateNotFound), st)
  {
  }

  /** No module, no short-name entry and no usable last module: "not found", nothing changed. */
  lemma NothingToSearch(st: ResolverState, fs: FileSystem, template: string, mod: Option<string>)
    requires !Truthy(Target(template, mod).0)
    requires Target(template, mod).1 !in st.templatesMap
    requires st.lastModule.None? || !Truthy(st.lastModule.value)
    ensures Resolve(st, fs, template, mod) == Step(Err(TemplateNotFound), st)
  {
  }

  /** Without a module argument, `prefix::name` names module `prefix` and short name `name`. */
  lemma QualifiedTarget(prefix: string, name: string)
    requires ':' !in prefix && LTrim(name, '/') == name
    ensures Target(prefix + "::" + name, None) == (prefix, name)
  {
    SplitAtSeparator(prefix, name);
  }

  /** The short name `Target` yields already has its leading `/` removed. */
  lemma ShortNameTrimmed(template: string, mod: Option<string>)
    ensures LTrim(Target(template, mod).1, '/') == Target(template, mod).1
  {
  }

  /** With a falsy module and no short-name entry, the last module is searched as if named. */
  lemma FallbackIn(st: ResolverState, fs: FileSystem, m: string, name: string)
    requires !Truthy(m) && name !in st.templatesMap
    requires st.lastModule.Some? && Truthy(st.lastModule.value)
    ensures ResolveIn(st, fs, m, name) == ResolveIn(st, fs, st.lastModule.value, name)
  {
  }

  /**
   * The fallback searches the last module and nothing else: it behaves
   * exactly like an explicit `last::name` lookup, which would record the
   * module that is already recorded.
   */
  lemma FallbackIsLastModuleLookup(st: ResolverState, fs: FileSystem, template: string, mod: Option<string>)
    requires !Truthy(Target(template, mod).0)
    requires Target(template, mod).1 !in st.templatesMap
    requires st.lastModule.Some? && Truthy(st.lastModule.value) && ':' !in st.lastModule.value
    ensures Resolve(st, fs, template, mod) == Resolve(st, fs, st.lastModule.value + "::" + Target(template, mod).1)
    ensures Resolve(st, fs, template, mod).state.lastModule == st.lastModule
  {
    var (m, name) := Target(template, mod);
    ShortNameTrimmed(template, mod);
    QualifiedTarget(st.lastModule.value, name);
    FallbackIn(st, fs, m, name);
  }

  /**
   * A module argument is the same as spelling the full name: resolving `t`
   * in module `M` and resolving `getFullTemplateName(M, t)` agree, outcome
   * and resolver state both.
   */
  lemma ModuleArgumentIsFullName(st: ResolverState, fs: FileSystem, t: string, mod: string)
    requires ':' !in mod && IndexOf(t, "::").None?
    ensures Resolve(st, fs, t, Some(mod)) == Resolve(st, fs, GetFullTemplateName(mod, t))
  {
    var key := NormalizeModule(mod);
    var short := LTrim(t, '/');
    NormalizeIntroducesNothing(mod, ':');
    assert LTrim(short, '/') == short;
    QualifiedTarget(key, short);
    if !Truthy(mod) {
      NormalizeFalsy(mod);
    }
    assert Target(t, Some(mod)) == (if Truthy(mod) then key else mod, short);
  }

  /** The two falsy module names normalise to themselves. */
  lemma NormalizeFalsy(mod: string)
    requires !Truthy(mod)
    ensures NormalizeModule(mod) == mod
  {
    if mod == "0" {
      NormalizeByStages("0", "0", "0", "0");
    } else {
      NormalizeEmpty();
    }
  }

  lemma NormalizeEmpty()
    ensures NormalizeModule("") == ""
  {
    assert ReplaceChar("", '\\', '/') == "";
    assert Trim("", '/') == "";
  }

  /** A module argument that normalises to something truthy was truthy itself. */
  lemma TruthyBeforeNormalizing(mod: string)
    requires Truthy(NormalizeModule(mod))
    ensures Truthy(mod)
  {
    if !Truthy(mod) {
      NormalizeFalsy(mod);
    }
  }

  /**
   * An explicit module wins over an embedded `x::` prefix, which is cut off
   * all the same: the prefix has no influence at all.
   */
  lemma ModuleOverridesPrefix(st: ResolverState, fs: FileSystem, prefix: string, t: string, mod: string)
    requires ':' !in prefix && IndexOf(t, "::").None?
    requires Truthy(NormalizeModule(mod))
    ensures Resolve(st, fs, prefix + "::" + t, Some(mod)) == Resolve(st, fs, t, Some(mod))
  {
    SplitAtSeparator(prefix, t);
    TruthyBeforeNormalizing(mod);
    assert Target(prefix + "::" + t, Some(mod)) == Target(t, Some(mod));
  }

  /**
   * A glob hit is cached under `module::name`: the template is then known
   * to `hasTemplate`, and asking again takes the table path, which returns
   * the normalised file without consulting `glob` again.
   */
  lemma GlobHitCached(st: ResolverState, fs: FileSystem, fs2: FileSystem, template: string, mod: Option<string>)
    requires Truthy(Target(template, mod).0)
    requires Target(template, mod).0 + "::" + Target(template, mod).1 !in st.templatesMap
    requires Target(template, mod).0 in st.modulesMap
    requires var found := fs.glob(GlobPattern(st.modulesMap[Target(template, mod).0], Target(template, mod).1));
             |found| > 0 && Truthy(found[0]) && Truthy(NormalizePath(found[0])) && fs2.fileExists(NormalizePath(found[0]))
    ensures var (m, name) := Target(template, mod);
            var found := fs.glob(GlobPattern(st.modulesMap[m], name));
            var r := Resolve(st, fs, template, mod);
            && r.result == Ok(found[0])
            && HasTemplate(r.state, m + "::" + name)
            && r.state.lastModule == Some(m)
            && Resolve(r.state, fs2, template, mod) == Step(Ok(NormalizePath(found[0])), r.state)
  {
  }
}

=== FILE: strategy_listener.dfy ===
/**
 * The view strategy (src/Listener/StrategyListener.php): for the model a
 * ViewEvent carries, resolve its template file, pick the template engine the
 * configuration associates with the file's extension, and let it render.
 *
 * The service locator is a parameter: a function from a service name to the
 * service registered under it.
 */
module StrategyListener {
  import opened Common
  import opened Php
  import opened ViewModels
  import opened TemplateResolver

  /** A service as the strategy sees it: a template engine (its `render`), or anything else. */
  datatype Service = Engine(render: ViewModel -> Value) | NotEngine

  /** The strategy's configuration: file extension to engine service name. */
  type Config = map<string, string>

  /** `basename` on `/`-separated paths: trailing separators ignored, then what follows the last one. */
  function Basename(path: string): (r: string)
    ensures '/' !in r
  {
    var t := RTrim(path, '/');
    match LastIndexOf(t, '/')
    case None => t
    case Some(i) => t[i + 1..]
  }

  /** `pathinfo(path, PATHINFO_EXTENSION)`: what follows the last `.` of the basename, or `''`. */
  function Extension(path: string): (r: string)
    ensures '.' !in r && '/' !in r
  {
    var b := Basename(path);
    match LastIndexOf(b, '.')
    case None => ""
    case Some(i) => b[i + 1..]
  }

  /** `strrpos` finds the one occurrence that has no other after it. */
  lemma LastIndexOfIs(s: string, c: char, i: nat)
    requires i < |s| && s[i] == c
    requires forall j :: i < j < |s| ==> s[j] != c
    ensures LastIndexOf(s, c) == Some(i)
  {
  }

  /** A file `dir/name.ext` has extension `ext`, whatever the directory and the dots in it. */
  lemma ExtensionOf(dir: string, name: string, ext: string)
    requires '/' !in name && '.' !in ext && '/' !in ext
    ensures Extension(dir + "/" + name + "." + ext) == ext
  {
    var path := dir + "/" + name + "." + ext;
    assert path[|path| - 1] != '/';
    assert RTrim(path, '/') == path;
    LastIndexOfIs(path, '/', |dir|);
    var b := path[|dir| + 1..];
    assert b == name + "." + ext;
    LastIndexOfIs(b, '.', |name|);
    assert b[|name| + 1..] == ext;
  }

  /** A name without `.` has no extension. */
  lemma NoExtension(dir: string, name: string)
    requires '/' !in name && '.' !in name && |name| > 0
    ensures Extension(dir + "/" + name) == ""
  {
    var path := dir + "/" + name;
    assert path[|path| - 1] != '/';
    assert RTrim(path, '/') == path;
    LastIndexOfIs(path, '/', |dir|);
    assert Basename(path) == name;
  }

  /**
   * `__invoke`: resolve the model's template in the model's module (a
   * missing template is resolved as `''`), then render with the engine
   * configured for the file's extension. The resolver's exceptions pass
   * through; an unconfigured extension and a service that is not an engine
   * are UnexpectedValueExceptions. The resolver state is the one `resolve`
   * leaves in every case.
   */
  function Invoke(config: Config, services: string -> Service, st: ResolverState, fs: FileSystem, m: ViewModel)
    : (r: Step<Value, ResolverState>)
    ensures var res := Resolve(st, fs, if m.template.Some? then m.template.value else "", m.moduleName);
            && r.state == res.state
            && (res.result.Err? ==> r.result == Err(res.result.error))
            && (res.result.Ok? && Extension(res.result.value) !in config ==> r.result == Err(UnexpectedValue))
            && (res.result.Ok? && Extension(res.result.value) in config
                  && services(config[Extension(res.result.value)]).NotEngine?
                ==> r.result == Err(UnexpectedValue))
            && (r.result.Ok? <==> res.result.Ok? && Extension(res.result.value) in config
                                  && services(config[Extension(res.result.value)]).Engine?)
            && (r.result.Ok? ==> r.result.value == services(config[Extension(res.result.value)]).render(m))
    ensures r.result.Err? ==> r.result.error in {TemplateNotFound, Runtime, UnexpectedValue}
  {
    var template := if m.template.Some? then m.template.value else "";
    var res := Resolve(st, fs, template, m.moduleName);
    match res.result
    case Err(e) => Step(Err(e), res.state)
    case Ok(file) =>
      var ext := Extension(file);
      if ext !in config then Step(Err(UnexpectedValue), res.state)
      else
        match services(config[ext])
        case NotEngine => Step(Err(UnexpectedValue), res.state)
        case Engine(render) => Step(Ok(render(m)), res.state)
  }

  /**
   * The engine is chosen by the resolved file alone: when the template
   * resolves to `dir/name.ext` and `ext` is mapped to an engine, that
   * engine renders the model, and only the resolver's own bookkeeping
   * changes.
   */
  lemma EngineOfResolvedFile(config: Config, services: string -> Service, st: ResolverState, fs: FileSystem,
                             m: ViewModel, dir: string, name: string, ext: string)
    requires '/' !in name && '.' !in ext && '/' !in ext
    requires Resolve(st, fs, if m.template.Some? then m.template.value else "", m.moduleName).result
             == Ok(dir + "/" + name + "." + ext)
    requires ext in config && services(config[ext]).Engine?
    ensures Invoke(config, services, st, fs, m).result == Ok(services(config[ext]).render(m))
    ensures Invoke(config, services, st, fs, m).state.modulesMap == st.modulesMap
  {
    ExtensionOf(dir, name, ext);
  }

  /** A resolved file without an extension can only be rendered by an engine mapped to `''`. */
  lemma ExtensionlessFile(config: Config, services: string -> Service, st: ResolverState, fs: FileSystem,
                          m: ViewModel, dir: string, name: string)
    requires '/' !in name && '.' !in name && |name| > 0
    requires Resolve(st, fs, if m.template.Some? then m.template.value else "", m.moduleName).result
             == Ok(dir + "/" + name)
    requires "" !in config
    ensures Invoke(config, services, st, fs, m).result == Err(UnexpectedValue)
  {
    NoExtension(dir, name);
  }
}

=== FILE: view.dfy ===
/**
 * The view (src/View.php): the lazily created layout, and `render`, which
 * renders a model's children first, appends each child's output to the
 * parent's variable named by the child's group id, and then hands the
 * parent to the rendering strategy.
 *
 * The strategy stands for the event bus and its listeners (the ViewEvent
 * triggered for each model): a function from a model and a state of its own
 * to the event's result, or to an exception. A result is any PHP value; it
 * is concatenated into the parent's slot after a string cast.
 */
module Views {
  import opened Common
  import opened Php
  import opened ViewModels

  /** The view's one piece of state that the model covers: its layout, if any yet. */
  datatype View = View(layout: Option<ViewModel>)

  /** The template `getLayout` gives a layout it creates. */
  const LayoutTemplate: string := "layout/layout"

  /** `getLayout`: the layout, created on first use as a fresh model with template `layout/layout`. */
  function GetLayout(v: View): (r: (ViewModel, View))
    ensures r.1 == View(Some(r.0))
    ensures v.layout.Some? ==> r.0 == v.layout.value
    ensures v.layout.None? ==> r.0.template == Some(LayoutTemplate)
    ensures v.layout.None? ==> r.0.variables == map[] && r.0.children == [] && r.0.moduleName.None?
  {
    match v.layout
    case Some(l) => (l, v)
    case None =>
      var l := SetTemplate(Fresh, Str(LayoutTemplate));
      (l, View(Some(l)))
  }

  /** `setLayout`. */
  function SetLayout(v: View, layout: ViewModel): (r: View)
    ensures GetLayout(r) == (layout, r)
  {
    View(Some(layout))
  }

  /** The layout is created once: asking again returns the same model; `setLayout` replaces it. */
  lemma LayoutStable(v: View, layout: ViewModel)
    ensures GetLayout(GetLayout(v).1) == GetLayout(v)
    ensures GetLayout(SetLayout(v, layout)).0 == layout
    ensures GetLayout(View(None)).0 == SetTemplate(Fresh, Str(LayoutTemplate))
  {
  }

  // ---------------------------------------------------------------------
  // Rendering

  /** What `render` leaves behind: the model as updated, the result or the exception, the strategy's state. */
  datatype Rendered<S> = Rendered(node: ViewModel, result: Result<Value>, state: S)

  /** `empty($groupId)`: a child whose group id is falsy is skipped. */
  predicate HasGroup(child: ViewModel) {
    Truthy(child.groupId)
  }

  /** The slot update: the old value (or `''` if unset or null), then the child's output. */
  function AppendSlot(vars: map<string, Value>, groupId: string, output: Value): map<string, Value> {
    vars[groupId := Str(Cast(Lookup(vars, groupId, Str(""))) + Cast(output))]
  }

  /**
   * `render(model)`. The returned node is the model as `render` leaves it:
   * its slot variables filled and its rendered children replaced by their
   * own updated selves.
   */
  function Render<S>(n: ViewModel, s: S, strategy: (ViewModel, S) -> Step<Value, S>): (r: Rendered<S>)
    ensures r.node == n.(variables := r.node.variables, children := r.node.children)
    ensures |r.node.children| == |n.children|
    ensures GroupsFrom(r.node.children, n.children, 0)
    decreases n, 1
  {
    var c := RenderChildren(n, 0, n.variables, [], s, strategy);
    if c.result.Err? then c
    else
      var out := strategy(c.node, c.state);
      Rendered(c.node, out.result, out.state)
  }

  /**
   * The loop of `render` from child `i` on, with the slot variables `vars`
   * and the already visited children `done` so far. On success the result
   * is `Ok(Null)` and the node carries the final variables and children.
   */
  function RenderChildren<S>(n: ViewModel, i: nat, vars: map<string, Value>, done: seq<ViewModel>, s: S,
                             strategy: (ViewModel, S) -> Step<Value, S>): (r: Rendered<S>)
    requires i <= |n.children| && |done| == i
    ensures r.node == n.(variables := r.node.variables, children := r.node.children)
    ensures |r.node.children| == |n.children| && r.node.children[..i] == done
    ensures GroupsFrom(r.node.children, n.children, i)
    decreases n, 0, |n.children| - i
  {
    if i == |n.children| then Rendered(n.(variables := vars, children := done), Ok(Null), s)
    else
      var child := n.children[i];
      if !HasGroup(child) then
        var rest := RenderChildren(n, i + 1, vars, done + [child], s, strategy);
        PrefixOfLonger(rest.node.children, done, child);
        GroupsStep(rest.node.children, n.children, i);
        rest
      else
        var c := Render(child, s, strategy);
        match c.result
        case Err(e) =>
          var kids := done + [c.node] + n.children[i + 1..];
          GroupsFailed(done, c.node, n.children);
          Rendered(n.(variables := vars, children := kids), Err(e), c.state)
        case Ok(out) =>
          var rest := RenderChildren(n, i + 1, AppendSlot(vars, child.groupId, out), done + [c.node], c.state, strategy);
          PrefixOfLonger(rest.node.children, done, c.node);
          GroupsStep(rest.node.children, n.children, i);
          rest
  }

  /** From position `i` on, the two lists of models have the same group ids. */
  predicate GroupsFrom(a: seq<ViewModel>, b: seq<ViewModel>, i: nat) {
    |a| == |b| && forall j :: i <= j < |a| ==> a[j].groupId == b[j].groupId
  }

  lemma GroupsStep(a: seq<ViewModel>, b: seq<ViewModel>, i: nat)
    requires GroupsFrom(a, b, i + 1) && i < |a| && a[i].groupId == b[i].groupId
    ensures GroupsFrom(a, b, i)
  {
  }

  /** The children after a failed child: those before, the failed child as left, those not reached. */
  lemma GroupsFailed(done: seq<ViewModel>, x: ViewModel, b: seq<ViewModel>)
    requires |done| < |b| && x.groupId == b[|done|].groupId
    ensures var kids := done + [x] + b[|done| + 1..];
            kids[..|done|] == done && GroupsFrom(kids, b, |done|)
  {
    var kids := done + [x] + b[|done| + 1..];
    assert kids[..|done|] == done;
    forall j | |done| <= j < |kids|
      ensures kids[j].groupId == b[j].groupId
    {
      if j > |done| {
        assert kids[j] == b[j];
      }
    }
  }

  /** A prefix one element longer than `d`, ending in `x`: `d` is a prefix too, and `x` follows it. */
  lemma PrefixOfLonger<T>(a: seq<T>, d: seq<T>, x: T)
    requires |d| < |a| && a[..|d| + 1] == d + [x]
    ensures a[..|d|] == d && a[|d|] == x
  {
    assert a[..|d|] == a[..|d| + 1][..|d|];
    assert a[|d|] == a[..|d| + 1][|d|];
  }
}

=== FILE: view_examples.dfy ===
/**
 * The two rendering scenarios of the view's test data: outputs of sibling
 * children collect in the parent's `content` slot, and a child whose group
 * id was cleared is never handed to the strategy.
 */
module ViewExamples {
  import opened Common
  import opened Php
  import opened ViewModels
  import opened Views
  import opened ViewProperties

  /** The test strategy: the model's `id` variable followed by its `content` slot. */
  function IdThenContent(m: ViewModel): Value {
    Str(Cast(GetVariable(m, "id")) + Cast(GetVariable(m, "content")))
  }

  function Leaf(id: string): ViewModel {
    Fresh.(variables := map["id" := Str(id)])
  }

  /** A model without children renders to the strategy's value for itself, unchanged. */
  lemma RenderLeaf<S>(leaf: ViewModel, s: S, f: (ViewModel, S) -> Step<Value, S>)
    requires leaf.children == []
    ensures Render(leaf, s, f) == Rendered(leaf, f(leaf, s).result, f(leaf, s).state)
  {
    assert RenderChildren(leaf, 0, leaf.variables, [], s, f) == Rendered(leaf, Ok(Null), s);
  }

  /** The test's tree: a root with the children `foo` and `bar`, both in the default group. */
  function RootFooBarTree(): ViewModel {
    AddChild(AddChild(Leaf("root"), Leaf("foo")), Leaf("bar"))
  }

  /** Two children in the default group render, in order, into their parent's `content`. */
  lemma RootFooBar()
    ensures Render(RootFooBarTree(), (), Pure(IdThenContent)).result == Ok(Str("rootfoobar"))
  {
    var root := RootFooBarTree();
    var f := Pure<()>(IdThenContent);
    var done := root.(variables := ContentIs("foobar"), children := [Leaf("foo"), Leaf("bar")]);
    RootFooBarShape();
    VisitChild(root, 1, ContentIs("foo"), [Leaf("foo")], "bar", ContentIs("foobar"));
    VisitChild(root, 0, root.variables, [], "foo", ContentIs("foo"));
    RenderAfterChildren(root, (), f, Rendered(done, Ok(Null), ()));
    RootFooBarOutput(done);
  }

  /** Once the children are rendered, `render` hands the updated model to the strategy. */
  lemma RenderAfterChildren<S>(n: ViewModel, s: S, f: (ViewModel, S) -> Step<Value, S>, c: Rendered<S>)
    requires RenderChildren(n, 0, n.variables, [], s, f) == c && c.result.Ok?
    ensures Render(n, s, f) == Rendered(c.node, f(c.node, c.state).result, f(c.node, c.state).state)
  {
  }

  lemma RootFooBarOutput(done: ViewModel)
    requires done.variables == ContentIs("foobar")
    ensures Pure<()>(IdThenContent)(done, ()).result == Ok(Str("rootfoobar"))
  {
    assert Pure<()>(IdThenContent)(done, ()) == Step(Ok(IdThenContent(done)), ());
    assert |"content"| != |"id"|;
    assert GetVariable(done, "id") == Str("root");
    assert GetVariable(done, "content") == Str("foobar");
    assert "root" + "foobar" == "rootfoobar";
  }

  /** The root's variables once its `content` slot holds `content`. */
  function ContentIs(content: string): map<string, Value> {
    map["id" := Str("root"), "content" := Str(content)]
  }

  lemma RootFooBarShape()
    ensures RootFooBarTree().children == [Leaf("foo"), Leaf("bar")]
    ensures RootFooBarTree().variables == map["id" := Str("root")]
    ensures AppendSlot(map["id" := Str("root")], "content", Str("foo")) == ContentIs("foo")
    ensures AppendSlot(ContentIs("foo"), "content", Str("bar")) == ContentIs("foobar")
    ensures var done := RootFooBarTree().(variables := ContentIs("foobar"), children := [Leaf("foo"), Leaf("bar")]);
            RenderChildren(RootFooBarTree(), 2, ContentIs("foobar"), [Leaf("foo"), Leaf("bar")], (), Pure(IdThenContent))
            == Rendered(done, Ok(Null), ())
  {
    assert |"content"| != |"id"|;
    assert Lookup(map["id" := Str("root")], "content", Str("")) == Str("");
    assert "" + "foo" == "foo";
    assert Lookup(ContentIs("foo"), "content", Str("")) == Str("foo");
    assert "foo" + "bar" == "foobar";
    assert ContentIs("foo")["content" := Str("foobar")] == ContentIs("foobar");
  }

  /** Visiting the leaf child `i`, named `id`: its output `id` goes to the root's `content` slot. */
  lemma VisitChild(root: ViewModel, i: nat, vars: map<string, Value>, done: seq<ViewModel>, id: string,
                   vars': map<string, Value>)
    requires i < |root.children| && |done| == i && root.children[i] == Leaf(id)
    requires vars' == AppendSlot(vars, "content", Str(id))
    ensures RenderChildren(root, i, vars, done, (), Pure(IdThenContent))
            == RenderChildren(root, i + 1, vars', done + [Leaf(id)], (), Pure(IdThenContent))
  {
    var leaf := Leaf(id);
    assert HasGroup(leaf) by {
      assert Truthy("content");
    }
    RenderLeaf(leaf, (), Pure(IdThenContent));
    assert IdThenContent(leaf) == Str(id);
  }

  /**
   * A child whose group id was set to `null` is skipped: whatever the
   * strategy, it is handed the root alone, and the root comes back unchanged.
   */
  lemma IgnoredChild<S>(s: S, f: (ViewModel, S) -> Step<Value, S>)
    ensures var root := AddChild(Fresh, SetGroupId(Fresh, Null));
            var r := Render(root, (s, []), Logged(f));
            r.node == root && r.state.1 == [root]
  {
    var ignored := SetGroupId(Fresh, Null);
    var root := AddChild(Fresh, ignored);
    assert !HasGroup(ignored);
    assert root.children == [ignored];
    assert RenderChildren(root, 1, root.variables, [ignored], (s, []), Logged(f)) == Rendered(root, Ok(Null), (s, []));
  }
}

=== FILE: view_model.dfy ===
/**
 * The view model (src/ViewModel.php): a variable bag, four string
 * properties, and an ordered list of child models.
 *
 * A PHP object graph is modelled as a tree of immutable values; an operation
 * that mutates the model returns the updated model.
 */
module ViewModels {
  import opened Common
  import opened Php

  /**
   * A PHP value as far as the view layer looks at it: `null`, a string, or
   * any other value (a boolean, a number, an array, an object) described by
   * what a `(string)` cast makes of it.
   */
  datatype Value = Null | Str(s: string) | Other(cast: string)

  /** PHP's `(string)` cast; `null` becomes the empty string. */
  function Cast(v: Value): (r: string)
    ensures v.Null? ==> r == ""
    ensures v.Str? ==> r == v.s
  {
    match v
    case Null => ""
    case Str(s) => s
    case Other(c) => c
  }

  /**
   * The argument of `addVariables` and `setVariables`: an array, a
   * `stdClass` or a `Traversable`, each seen through the array it converts
   * to (`(array)` or `iterator_to_array`), or anything else.
   */
  datatype Variables =
    | ArrayVars(entries: map<string, Value>)
    | ObjectVars(entries: map<string, Value>)
    | TraversableVars(entries: map<string, Value>)
    | Invalid

  datatype ViewModel = ViewModel(
    variables: map<string, Value>,
    template: Option<string>,
    moduleName: Option<string>,
    contentType: string,
    groupId: string,
    children: seq<ViewModel>)

  /** `new ViewModel()`: the property defaults. */
  const Fresh := ViewModel(map[], None, None, "text/html", "content", [])

  /** `addVariables`: an `array_merge` in which the new entries win; anything but the three shapes is refused. */
  function AddVariables(m: ViewModel, vars: Variables): (r: Result<ViewModel>)
    ensures r.Err? <==> vars.Invalid?
    ensures r.Err? ==> r.error == InvalidArgument
    ensures r.Ok? ==> r.value.variables.Keys == m.variables.Keys + vars.entries.Keys
    ensures r.Ok? ==> forall k :: k in vars.entries ==> r.value.variables[k] == vars.entries[k]
    ensures r.Ok? ==> forall k :: k in m.variables && k !in vars.entries ==> r.value.variables[k] == m.variables[k]
    ensures r.Ok? ==> r.value == m.(variables := r.value.variables)
  {
    match vars
    case Invalid => Err(InvalidArgument)
    case _ => Ok(m.(variables := m.variables + vars.entries))
  }

  /**
   * `setVariables`: the bag is emptied first, then filled as by
   * `addVariables`; an invalid argument leaves the emptied bag behind.
   */
  function SetVariables(m: ViewModel, vars: Variables): (r: Step<(), ViewModel>)
    ensures r.result.Err? <==> vars.Invalid?
    ensures r.result.Err? ==> r.result.error == InvalidArgument && r.state == m.(variables := map[])
    ensures r.result.Ok? ==> r.state == m.(variables := vars.entries)
  {
    var cleared := m.(variables := map[]);
    match AddVariables(cleared, vars)
    case Ok(m') => Step(Ok(()), m')
    case Err(e) => Step(Err(e), cleared)
  }

  /** `setVariable`: one entry, stored as given (a `null` is stored too). */
  function SetVariable(m: ViewModel, name: string, value: Value): (r: ViewModel)
    ensures name in r.variables && r.variables[name] == value
    ensures forall k :: k != name ==> (k in r.variables <==> k in m.variables)
    ensures forall k :: k != name && k in m.variables ==> r.variables[k] == m.variables[k]
    ensures r == m.(variables := r.variables)
  {
    m.(variables := m.variables[name := value])
  }

  function GetVariables(m: ViewModel): map<string, Value> {
    m.variables
  }

  /** `getVariable` over a bag: `isset` fails for a missing key and for a stored `null`. */
  function Lookup(vars: map<string, Value>, name: string, default: Value): (r: Value)
    ensures name in vars && vars[name] != Null ==> r == vars[name]
    ensures name !in vars || vars[name] == Null ==> r == default
  {
    if name in vars && vars[name] != Null then vars[name] else default
  }

  /** `getVariable(name, default)`. */
  function GetVariable(m: ViewModel, name: string, default: Value := Null): (r: Value)
    ensures name in m.variables && m.variables[name] != Null ==> r == m.variables[name]
    ensures name !in m.variables || m.variables[name] == Null ==> r == default
  {
    Lookup(m.variables, name, default)
  }

  /**
   * The setters store what a `(string)` cast makes of their argument, read
   * back by the matching getter, and leave every other property alone.
   */
  function SetContentType(m: ViewModel, v: Value): (r: ViewModel)
    ensures GetContentType(r) == Cast(v)
    ensures r == m.(contentType := GetContentType(r))
  {
    m.(contentType := Cast(v))
  }

  function SetModule(m: ViewModel, v: Value): (r: ViewModel)
    ensures GetModule(r) == Some(Cast(v))
    ensures r == m.(moduleName := GetModule(r))
  {
    m.(moduleName := Some(Cast(v)))
  }

  function SetTemplate(m: ViewModel, v: Value): (r: ViewModel)
    ensures GetTemplate(r) == Some(Cast(v))
    ensures r == m.(template := GetTemplate(r))
  {
    m.(template := Some(Cast(v)))
  }

  function SetGroupId(m: ViewModel, v: Value): (r: ViewModel)
    ensures GetGroupId(r) == Cast(v)
    ensures r == m.(groupId := GetGroupId(r))
  {
    m.(groupId := Cast(v))
  }

  function GetContentType(m: ViewModel): string { m.contentType }
  function GetModule(m: ViewModel): Option<string> { m.moduleName }
  function GetTemplate(m: ViewModel): Option<string> { m.template }
  function GetGroupId(m: ViewModel): string { m.groupId }

  /**
   * The constructor: each argument that is not `null` is applied, the
   * variables through `addVariables` (and so refused unless valid).
   */
  function New(vars: Option<Variables>, template: Value := Null, mod: Value := Null): (r: Result<ViewModel>)
    ensures r.Err? <==> vars == Some(Invalid)
    ensures r.Err? ==> r.error == InvalidArgument
    ensures r.Ok? ==> r.value.variables == (if vars.Some? then vars.value.entries else map[])
    ensures r.Ok? ==> r.value.template == (if template.Null? then None else Some(Cast(template)))
    ensures r.Ok? ==> r.value.moduleName == (if mod.Null? then None else Some(Cast(mod)))
    ensures r.Ok? ==> r.value.contentType == "text/html" && r.value.groupId == "content" && r.value.children == []
  {
    var withVars := if vars.Some? then AddVariables(Fresh, vars.value) else Ok(Fresh);
    match withVars
    case Err(e) => Err(e)
    case Ok(m) =>
      var m1 := if template.Null? then m else SetTemplate(m, template);
      var m2 := if mod.Null? then m1 else SetModule(m1, mod);
      Ok(m2)
  }

  /**
   * `addChild(child, groupId)`: the child goes last; a group id that is
   * not `null` is stamped on it (as a string), otherwise it keeps its own.
   */
  function AddChild(m: ViewModel, child: ViewModel, groupId: Value := Null): (r: ViewModel)
    ensures |r.children| == |m.children| + 1
    ensures r.children[..|m.children|] == m.children
    ensures r.children[|m.children|].groupId == (if groupId.Null? then child.groupId else Cast(groupId))
    ensures r.children[|m.children|] == child.(groupId := r.children[|m.children|].groupId)
    ensures r == m.(children := r.children)
  {
    var stamped := if groupId.Null? then child else SetGroupId(child, groupId);
    m.(children := m.children + [stamped])
  }

  /** `getIterator`: the direct children, in order. */
  function Children(m: ViewModel): seq<ViewModel> {
    m.children
  }

  // ---------------------------------------------------------------------
  // Round trips between the setters and the getters

  /** What `setVariable` stores, `getVariable` returns, unless it was `null`. */
  lemma VariableRoundTrip(m: ViewModel, name: string, value: Value, other: string, default: Value)
    requires other != name
    ensures GetVariable(SetVariable(m, name, value), name, default) == (if value.Null? then default else value)
    ensures GetVariable(SetVariable(m, name, value), other, default) == GetVariable(m, other, default)
  {
  }

  /** Each property setter is read back by its getter as the string cast. */
  lemma PropertyRoundTrip(m: ViewModel, v: Value)
    ensures GetContentType(SetContentType(m, v)) == Cast(v)
    ensures GetModule(SetModule(m, v)) == Some(Cast(v))
    ensures GetTemplate(SetTemplate(m, v)) == Some(Cast(v))
    ensures GetGroupId(SetGroupId(m, v)) == Cast(v)
    ensures GetGroupId(SetGroupId(m, Null)) == "" && !Truthy(GetGroupId(SetGroupId(m, Null)))
  {
  }

  /** A fresh model: `text/html`, group `content`, nothing else set. */
  lemma FreshDefaults(name: string)
    ensures New(None) == Ok(Fresh)
    ensures GetContentType(Fresh) == "text/html" && GetGroupId(Fresh) == "content"
    ensures GetTemplate(Fresh).None? && GetModule(Fresh).None?
    ensures GetVariables(Fresh) == map[] && Children(Fresh) == []
    ensures GetVariable(Fresh, name, Str("d")) == Str("d")
  {
  }

  /**
   * Setting replaces and adding merges: `setVariables` after anything gives
   * exactly the new entries, `addVariables` keeps the keys it does not name.
   */
  lemma SetIsClearThenAdd(m: ViewModel, vars: Variables)
    ensures SetVariables(m, vars).state.variables == (if vars.Invalid? then map[] else vars.entries)
    ensures !vars.Invalid? ==> Ok(SetVariables(m, vars).state) == AddVariables(m.(variables := map[]), vars)
  {
  }

  /** The three accepted shapes are interchangeable: only the entries matter. */
  lemma ShapesAgree(m: ViewModel, entries: map<string, Value>)
    ensures AddVariables(m, ArrayVars(entries)) == AddVariables(m, ObjectVars(entries))
    ensures AddVariables(m, ArrayVars(entries)) == AddVariables(m, TraversableVars(entries))
  {
  }

  /** Children are appended in call order; the iterator sees exactly them. */
  lemma ChildrenInOrder(m: ViewModel, a: ViewModel, b: ViewModel)
    ensures Children(AddChild(AddChild(m, a), b)) == Children(m) + [a, b]
    ensures Children(AddChild(AddChild(m, a, Str("x")), b)) == Children(m) + [a.(groupId := "x"), b]
  {
  }
}

=== FILE: view_properties.dfy ===
/**
 * What `render` guarantees: it changes nothing but slot variables, it hands
 * every rendered model to the strategy exactly once and after all of that
 * model's rendered descendants, and, for a strategy that only computes from
 * the model it is given, it agrees with a declarative reference in which
 * each slot is its old value followed by its children's outputs.
 */
module ViewProperties {
  import opened Common
  import opened Php
  import opened ViewModels
  import opened Views

  // ---------------------------------------------------------------------
  // Only slot variables change

  /** The group ids of the children that are rendered. */
  function SlotKeys(kids: seq<ViewModel>): set<string> {
    set j | 0 <= j < |kids| && HasGroup(kids[j]) :: kids[j].groupId
  }

  /**
   * `b` is `a` after rendering: same properties and the same number of
   * children; variables differ only under the group ids of rendered
   * children; skipped children are untouched and rendered ones are related
   * in the same way, all the way down.
   */
  ghost predicate OnlySlotsChanged(a: ViewModel, b: ViewModel)
    decreases a
  {
    && b == a.(variables := b.variables, children := b.children)
    && |b.children| == |a.children|
    && (forall k :: k !in SlotKeys(a.children) ==> (k in a.variables <==> k in b.variables))
    && (forall k :: k !in SlotKeys(a.children) && k in a.variables ==> b.variables[k] == a.variables[k])
    && (forall j :: 0 <= j < |a.children| ==>
          if HasGroup(a.children[j]) then OnlySlotsChanged(a.children[j], b.children[j])
          else b.children[j] == a.children[j])
  }

  /** Rendering leaves templates, modules, content types, group ids, child lists and non-slot variables alone. */
  lemma {:induction false} RenderOnlySlots<S>(n: ViewModel, s: S, f: (ViewModel, S) -> Step<Value, S>)
    ensures OnlySlotsChanged(n, Render(n, s, f).node)
    decreases n, 1
  {
    assert SoFar(n, 0, n.variables, []);
    RenderChildrenOnlySlots(n, 0, n.variables, [], s, f);
  }

  /** The loop's invariant for `OnlySlotsChanged`: after `i` children, with the slot variables `vars`. */
  ghost predicate SoFar(n: ViewModel, i: nat, vars: map<string, Value>, done: seq<ViewModel>)
    requires i <= |n.children| && |done| == i
  {
    && (forall k :: k !in SlotKeys(n.children) ==> (k in n.variables <==> k in vars))
    && (forall k :: k !in SlotKeys(n.children) && k in n.variables ==> vars[k] == n.variables[k])
    && (forall j :: 0 <= j < i ==>
          if HasGroup(n.children[j]) then OnlySlotsChanged(n.children[j], done[j]) else done[j] == n.children[j])
  }

  lemma {:induction false} RenderChildrenOnlySlots<S>(n: ViewModel, i: nat, vars: map<string, Value>, done: seq<ViewModel>, s: S,
                                                      f: (ViewModel, S) -> Step<Value, S>)
    requires i <= |n.children| && |done| == i
    requires SoFar(n, i, vars, done)
    ensures OnlySlotsChanged(n, RenderChildren(n, i, vars, done, s, f).node)
    decreases n, 0, |n.children| - i
  {
    var r := RenderChildren(n, i, vars, done, s, f);
    if i < |n.children| {
      var child := n.children[i];
      if !HasGroup(child) {
        SkipStep(n, i, vars, done);
        RenderChildrenOnlySlots(n, i + 1, vars, done + [child], s, f);
      } else {
        var c := Render(child, s, f);
        RenderOnlySlots(child, s, f);
        if c.result.Ok? {
          var vars' := AppendSlot(vars, child.groupId, c.result.value);
          RenderStep(n, i, vars, done, c.node, vars');
          RenderChildrenOnlySlots(n, i + 1, vars', done + [c.node], c.state, f);
        } else {
          assert r.node == n.(variables := vars, children := done + [c.node] + n.children[i + 1..]);
          FailedChildOnlySlots(n, i, vars, done, c.node);
        }
      }
    } else {
      assert r.node.children == done;
    }
  }

  /** A skipped child keeps the invariant. */
  lemma SkipStep(n: ViewModel, i: nat, vars: map<string, Value>, done: seq<ViewModel>)
    requires i < |n.children| && |done| == i && !HasGroup(n.children[i])
    requires SoFar(n, i, vars, done)
    ensures SoFar(n, i + 1, vars, done + [n.children[i]])
  {
    var done' := done + [n.children[i]];
    assert forall j :: 0 <= j < i ==> done'[j] == done[j];
  }

  /** A rendered child keeps the invariant: only its own group's slot was written. */
  lemma RenderStep(n: ViewModel, i: nat, vars: map<string, Value>, done: seq<ViewModel>, rendered: ViewModel,
                   vars': map<string, Value>)
    requires i < |n.children| && |done| == i && HasGroup(n.children[i])
    requires SoFar(n, i, vars, done)
    requires OnlySlotsChanged(n.children[i], rendered)
    requires vars'.Keys == vars.Keys + {n.children[i].groupId}
    requires forall k :: k in vars && k != n.children[i].groupId ==> vars'[k] == vars[k]
    ensures SoFar(n, i + 1, vars', done + [rendered])
  {
    var done' := done + [rendered];
    assert forall j :: 0 <= j < i ==> done'[j] == done[j];
    assert n.children[i].groupId in SlotKeys(n.children);
  }

  /** A child that throws stops the loop: what was rendered so far is kept, the rest untouched. */
  lemma FailedChildOnlySlots(n: ViewModel, i: nat, vars: map<string, Value>, done: seq<ViewModel>, failed: ViewModel)
    requires i < |n.children| && |done| == i && HasGroup(n.children[i])
    requires SoFar(n, i, vars, done)
    requires OnlySlotsChanged(n.children[i], failed)
    ensures OnlySlotsChanged(n, n.(variables := vars, children := done + [failed] + n.children[i + 1..]))
  {
    var kids := done + [failed] + n.children[i + 1..];
    forall j | 0 <= j < |n.children|
      ensures if HasGroup(n.children[j]) then OnlySlotsChanged(n.children[j], kids[j]) else kids[j] == n.children[j]
    {
      if j < i {
        assert kids[j] == done[j];
      } else if j == i {
        assert kids[j] == failed;
      } else {
        assert kids[j] == n.children[j];
        OnlySlotsChangedReflexive(n.children[j]);
      }
    }
  }

  /** A model that was not rendered at all is related to itself. */
  lemma {:induction false} OnlySlotsChangedReflexive(a: ViewModel)
    ensures OnlySlotsChanged(a, a)
    decreases a
  {
    forall j | 0 <= j < |a.children| && HasGroup(a.children[j])
      ensures OnlySlotsChanged(a.children[j], a.children[j])
    {
      OnlySlotsChangedReflexive(a.children[j]);
    }
  }

  // ---------------------------------------------------------------------
  // Dispatch order

  /**
   * The models handed to the strategy, in order, for a tree as `render`
   * leaves it: each rendered child's own sequence, in child order, then the
   * model itself.
   */
  function PostOrder(n: ViewModel): (r: seq<ViewModel>)
    ensures |r| > 0 && r[|r| - 1] == n
    decreases n, 1
  {
    KidsPostOrder(n, 0) + [n]
  }

  function KidsPostOrder(n: ViewModel, i: nat): seq<ViewModel>
    decreases n, 0, |n.children| - i
  {
    if i >= |n.children| then []
    else (if HasGroup(n.children[i]) then PostOrder(n.children[i]) else []) + KidsPostOrder(n, i + 1)
  }

  /** A strategy that also records every model it is handed. */
  function Logged<S>(f: (ViewModel, S) -> Step<Value, S>): (ViewModel, (S, seq<ViewModel>)) -> Step<Value, (S, seq<ViewModel>)> {
    (m: ViewModel, st: (S, seq<ViewModel>)) =>
      var o := f(m, st.0);
      Step(o.result, (o.state, st.1 + [m]))
  }

  /**
   * A successful render hands the strategy exactly the post-order of the
   * rendered tree: every rendered model once, after all of its rendered
   * descendants and in its final state; skipped children never.
   */
  lemma {:induction false} DispatchOrder<S>(n: ViewModel, s: S, log: seq<ViewModel>, f: (ViewModel, S) -> Step<Value, S>)
    ensures var r := Render(n, (s, log), Logged(f));
            r.result.Ok? ==> r.state.1 == log + PostOrder(r.node)
    decreases n, 1
  {
    DispatchKids(n, 0, n.variables, [], s, log, f);
  }

  lemma {:induction false} DispatchKids<S>(n: ViewModel, i: nat, vars: map<string, Value>, done: seq<ViewModel>, s: S,
                                           log: seq<ViewModel>, f: (ViewModel, S) -> Step<Value, S>)
    requires i <= |n.children| && |done| == i
    ensures var r := RenderChildren(n, i, vars, done, (s, log), Logged(f));
            r.result.Ok? ==> r.state.1 == log + KidsPostOrder(r.node, i)
    decreases n, 0, |n.children| - i
  {
    var r := RenderChildren(n, i, vars, done, (s, log), Logged(f));
    if i < |n.children| && r.result.Ok? {
      var child := n.children[i];
      KidsPostOrderStep(r.node, i);
      if !HasGroup(child) {
        assert r == RenderChildren(n, i + 1, vars, done + [child], (s, log), Logged(f));
        DispatchKids(n, i + 1, vars, done + [child], s, log, f);
        assert r.node.children[..i + 1][i] == child;
      } else {
        var c := Render(child, (s, log), Logged(f));
        assert c.result.Ok?;
        var st := c.state;
        var vars' := AppendSlot(vars, child.groupId, c.result.value);
        assert r == RenderChildren(n, i + 1, vars', done + [c.node], (st.0, st.1), Logged(f));
        DispatchOrder(child, s, log, f);
        DispatchKids(n, i + 1, vars', done + [c.node], st.0, st.1, f);
        assert r.node.children[..i + 1][i] == c.node;
        Regroup(log, PostOrder(c.node), KidsPostOrder(r.node, i + 1));
      }
    }
  }

  lemma KidsPostOrderStep(node: ViewModel, i: nat)
    requires i < |node.children|
    ensures KidsPostOrder(node, i)
              == (if HasGroup(node.children[i]) then PostOrder(node.children[i]) else []) + KidsPostOrder(node, i + 1)
  {
  }

  // ---------------------------------------------------------------------
  // Slot contents, against a declarative reference

  /** A strategy that computes its result from the model alone and never throws. */
  function Pure<S>(g: ViewModel -> Value): (ViewModel, S) -> Step<Value, S> {
    (m: ViewModel, s: S) => Step(Ok(g(m)), s)
  }

  /** The outputs of the rendered children of group `k`, concatenated in child order. */
  function Collect(kids: seq<ViewModel>, k: string, g: ViewModel -> Value): string
    decreases |kids|
  {
    if |kids| == 0 then ""
    else
      var last := kids[|kids| - 1];
      Collect(kids[..|kids| - 1], k, g) + (if HasGroup(last) && last.groupId == k then Cast(g(last)) else "")
  }

  /** The variables after all children are in: each slot is its old value (or `''`) and then its group's outputs. */
  function Slots(vars: map<string, Value>, kids: seq<ViewModel>, g: ViewModel -> Value): map<string, Value> {
    map k | k in vars.Keys + SlotKeys(kids) :: SlotValue(vars, kids, g, k)
  }

  function SlotValue(vars: map<string, Value>, kids: seq<ViewModel>, g: ViewModel -> Value, k: string): Value
    requires k in vars || k in SlotKeys(kids)
  {
    if k in SlotKeys(kids) then Str(Cast(Lookup(vars, k, Str(""))) + Collect(kids, k, g)) else vars[k]
  }

  /** The reference rendering of a model under a pure strategy. */
  function RefRender(n: ViewModel, g: ViewModel -> Value): ViewModel
    decreases n, 2
  {
    var kids := RefKids(n, g);
    n.(variables := Slots(n.variables, kids, g), children := kids)
  }

  function RefKids(n: ViewModel, g: ViewModel -> Value): (r: seq<ViewModel>)
    ensures |r| == |n.children|
    decreases n, 1
  {
    seq(|n.children|, j requires 0 <= j < |n.children| => RefChild(n, g, j))
  }

  function RefChild(n: ViewModel, g: ViewModel -> Value, j: nat): ViewModel
    requires j < |n.children|
    decreases n, 0
  {
    if HasGroup(n.children[j]) then RefRender(n.children[j], g) else n.children[j]
  }

  /** A group with no rendered child collects nothing. */
  lemma {:induction false} CollectNone(kids: seq<ViewModel>, k: string, g: ViewModel -> Value)
    requires k !in SlotKeys(kids)
    ensures Collect(kids, k, g) == ""
    decreases |kids|
  {
    if |kids| > 0 {
      var front := kids[..|kids| - 1];
      assert forall j :: 0 <= j < |front| ==> front[j] == kids[j];
      CollectNone(front, k, g);
    }
  }

  lemma SlotKeysAppend(kids: seq<ViewModel>, c: ViewModel)
    ensures SlotKeys(kids + [c]) == SlotKeys(kids) + (if HasGroup(c) then {c.groupId} else {})
  {
    var all := kids + [c];
    forall k | k in SlotKeys(kids)
      ensures k in SlotKeys(all)
    {
      var j :| 0 <= j < |kids| && HasGroup(kids[j]) && kids[j].groupId == k;
      assert all[j] == kids[j];
    }
    forall k | k in SlotKeys(all)
      ensures k in SlotKeys(kids) + (if HasGroup(c) then {c.groupId} else {})
    {
      var j :| 0 <= j < |all| && HasGroup(all[j]) && all[j].groupId == k;
      if j < |kids| {
        assert all[j] == kids[j];
      }
    }
    if HasGroup(c) {
      assert all[|kids|] == c;
    }
  }

  /** Collecting over one more child adds that child's output if it belongs to the group. */
  lemma CollectAppend(kids: seq<ViewModel>, c: ViewModel, k: string, g: ViewModel -> Value)
    ensures Collect(kids + [c], k, g) == Collect(kids, k, g) + (if HasGroup(c) && c.groupId == k then Cast(g(c)) else "")
  {
    assert (kids + [c])[..|kids|] == kids;
  }

  /** A skipped child changes no slot. */
  lemma SlotsSkip(vars: map<string, Value>, kids: seq<ViewModel>, c: ViewModel, g: ViewModel -> Value)
    requires !HasGroup(c)
    ensures Slots(vars, kids + [c], g) == Slots(vars, kids, g)
  {
    SlotKeysAppend(kids, c);
    forall k | k in SlotKeys(kids)
      ensures Collect(kids + [c], k, g) == Collect(kids, k, g)
    {
      CollectAppend(kids, c, k, g);
    }
  }

  /** Reading a slot back gives its old value followed by what the group collected so far. */
  lemma SlotsLookup(vars: map<string, Value>, kids: seq<ViewModel>, g: ViewModel -> Value, k: string)
    ensures Cast(Lookup(Slots(vars, kids, g), k, Str(""))) == Cast(Lookup(vars, k, Str(""))) + Collect(kids, k, g)
  {
    if k !in SlotKeys(kids) {
      CollectNone(kids, k, g);
    }
  }

  /** The slot a rendered child writes to: old value, earlier outputs of the group, then its own. */
  lemma SlotsAppendOwn(vars: map<string, Value>, kids: seq<ViewModel>, c: ViewModel, g: ViewModel -> Value)
    requires HasGroup(c) && c.groupId in SlotKeys(kids + [c])
    ensures Slots(vars, kids + [c], g)[c.groupId] == Str(Cast(Lookup(Slots(vars, kids, g), c.groupId, Str(""))) + Cast(g(c)))
  {
    var k := c.groupId;
    var prior := Cast(Lookup(vars, k, Str("")));
    assert Slots(vars, kids + [c], g)[k] == Str(prior + Collect(kids + [c], k, g));
    CollectAppend(kids, c, k, g);
    SlotsLookup(vars, kids, g, k);
    Regroup(prior, Collect(kids, k, g), Cast(g(c)));
  }

  /** The slots of the other groups are not touched. */
  lemma SlotsAppendOther(vars: map<string, Value>, kids: seq<ViewModel>, c: ViewModel, g: ViewModel -> Value, k: string)
    requires k != c.groupId && k in Slots(vars, kids + [c], g)
    requires SlotKeys(kids + [c]) == SlotKeys(kids) + {c.groupId}
    ensures k in Slots(vars, kids, g) && Slots(vars, kids + [c], g)[k] == Slots(vars, kids, g)[k]
  {
    var all := kids + [c];
    assert k in SlotKeys(all) <==> k in SlotKeys(kids);
    assert Slots(vars, all, g)[k] == SlotValue(vars, all, g, k);
    assert Slots(vars, kids, g)[k] == SlotValue(vars, kids, g, k);
    CollectAppend(kids, c, k, g);
    assert Collect(all, k, g) == Collect(kids, k, g) + "";
  }

  /** A rendered child's output is appended to its group's slot, exactly as `render` does it. */
  lemma SlotsAppend(vars: map<string, Value>, kids: seq<ViewModel>, c: ViewModel, g: ViewModel -> Value)
    requires HasGroup(c)
    ensures Slots(vars, kids + [c], g) == AppendSlot(Slots(vars, kids, g), c.groupId, g(c))
  {
    var lhs := Slots(vars, kids + [c], g);
    var rhs := AppendSlot(Slots(vars, kids, g), c.groupId, g(c));
    SlotKeysAppend(kids, c);
    assert lhs.Keys == rhs.Keys;
    SlotsAppendOwn(vars, kids, c, g);
    forall k | k in lhs && k != c.groupId
      ensures lhs[k] == rhs[k]
    {
      SlotsAppendOther(vars, kids, c, g, k);
    }
  }

  /**
   * Under a pure strategy, `render` returns the strategy's value for the
   * reference model, and leaves the model as the reference says: slots
   * filled in child order, rendered children replaced by their references.
   */
  lemma {:induction false} PureRender<S>(n: ViewModel, s: S, g: ViewModel -> Value)
    ensures Render(n, s, Pure(g)) == Rendered(RefRender(n, g), Ok(g(RefRender(n, g))), s)
    decreases n, 3
  {
    PureKids(n, 0, n.variables, [], s, g);
    assert Slots(n.variables, [], g) == n.variables;
  }

  lemma {:induction false} PureKids<S>(n: ViewModel, i: nat, vars: map<string, Value>, done: seq<ViewModel>, s: S, g: ViewModel -> Value)
    requires i <= |n.children| && done == RefKids(n, g)[..i]
    requires vars == Slots(n.variables, done, g)
    ensures RenderChildren(n, i, vars, done, s, Pure(g)) == Rendered(RefRender(n, g), Ok(Null), s)
    decreases n, 0, |n.children| - i
  {
    var kids := RefKids(n, g);
    if i == |n.children| {
      assert done == kids;
    } else {
      var child := n.children[i];
      assert kids[..i + 1] == done + [kids[i]];
      if !HasGroup(child) {
        SlotsSkip(n.variables, done, child, g);
        PureKids(n, i + 1, vars, done + [child], s, g);
      } else {
        PureRender(child, s, g);
        var c := RefRender(child, g);
        SlotsAppend(n.variables, done, c, g);
        PureKids(n, i + 1, AppendSlot(vars, child.groupId, g(c)), done + [c], s, g);
      }
    }
  }
}
